=== FILE: README.md ===
# MariSocketClient connection bookkeeping, in Dafny

MariSocketClient is a C# WebSocket client. A `MariWebSocketClient` connects to a
`SocketEndpoint` using a `WebSocketConfig`. It raises five kinds of event:
Connected, Disconnected, Error, Message and Retry. When automatic reconnection is
on, a fault that disconnects the client starts a reconnect chain with a linear
backoff: each attempt waits one more configured interval, and the number of
attempts may be limited. A close frame from the peer enters the same policy, but
only reconnects if the client no longer counts itself connected, which nothing on
that path arranges (see below).

This project models the following, and proves what each promises:

- the client's connection and reconnect bookkeeping (`IsConnected`,
  `ReconnectAttempts`, `ReconnectInterval`, the event log);
- the receive-frame dispatch;
- the header store and how it is copied onto each new socket;
- `SendAsync`, `DisconnectAsync` and `Dispose`;
- the endpoint URL builder;
- the configuration defaulting;
- the fault funnel (`Try` and `HandleExceptionFromTryAsync`);
- the Retry event's message.

Modules, one per source file or concern:

| module | file | models |
|---|---|---|
| `Decimal` | decimal.dfy | how string interpolation writes an integer, with the parser that inverts it |
| `RetryArgs` | retry_event_args.dfy | `RetryEventArgs` and its `Message` text |
| `Endpoint` | socket_endpoint.dfy | `SocketEndpoint`: the three constructors, `ToString`, `WithPath`, `WithParam` |
| `Config` | web_socket_config.dfy | `WebSocketConfig` and `ValidateInstance` |
| `Events` | event_args.dfy | the five events and their payloads, as one ordered log |
| `Funnel` | extensions.dfy | `Try`, `Try<TResult>`, `HandleExceptionFromTryAsync` |
| `Session` | session.dfy | the chain ConnectAsync → HandleExAsync → ReconnectAsync → ConnectAsync(true), with ReceiveAsync and ReadMessageAsync, as a step function |
| `SessionProperties` | session_properties.dfy | what that chain guarantees |
| `ClientFields` | client_fields.dfy | the client's fields as one value, and what each public operation does to them |
| `Client` | client.dfy | the `WebSocketClient` class: fields updated in place, each method proved against `ClientFields`/`Session` |

The transport is not modelled. Each time the code would await the transport, the
caller supplies the outcome instead:

- one outcome per ConnectAsync past its guard: `Accepted`, `Refused(fault)`, or
  `InvalidUri(fault)` when the Uri parser rejects the endpoint's URL before any
  handshake;
- one result per receive call (a frame, the socket state after it, and the
  outcome of any close acknowledgement, or a fault);
- one optional fault per send or close.

These transport assumptions are the model's own; they are not in the repository:

- a refused handshake leaves the socket `Closed`;
- a rejected URL leaves the new socket unused, in its initial state;
- a faulted read, acknowledgement, send or close leaves it `Aborted`;
- a completed close leaves it `Closed`;
- `Abort` leaves it `Aborted`.

`Session.Run` steps the chain until it ends (`Idle`) or needs an outcome that
was not supplied. `Client.WebSocketClient.Connect` runs the same chain as a
`while` loop over the object's fields, and is proved equal to `Run`.

The model follows the code. These points of its behaviour may surprise a reader
who goes by the names and the one doc comment (on `MaxReconnectAttempts`):

- The limit notice reads "Reached the max ReconnectAttempts.": the source
  interpolates the property's name.
- `SendAsync` and `DisconnectAsync` wrap the transport call in `Try(this)`
  without `cancel`. A fault is therefore reported as an Error and swallowed,
  not rethrown to the caller.
- A canceled handshake or read still raises an Error, because `Try(this, true)`
  reports the exception before `HandleExAsync` sees it. Only the Disconnected
  event and the reconnection are skipped (`CanceledHandshakeStops`,
  `FailedReadReports`).
- A close frame from the peer, with automatic reconnection on, while the client
  still counts itself connected, does not reconnect. Nothing on that path clears
  `IsConnected`, so `ReconnectAsync` returns at its first guard
  (`RemoteCloseWhileConnectedDoesNotRetry`).
- `Dispose` reads `IsDisposed` but never sets it. A second `Dispose` therefore
  runs again. It changes nothing more (`DisposeIdempotent`), but it is not
  skipped.
- The text of a Message or a peer's Disconnected is the decoding of the whole
  `BufferSize` receive buffer: the delivered bytes, then zeros
  (`Session.Buffer`).
- The URL is parsed (`new Uri`) inside ConnectAsync's `try` but outside
  `Try(this, true)`. A rejected URL therefore reaches HandleExAsync with no
  Error event: only Disconnected(ProtocolError), and then the reconnect policy.
  The same URL fails again on every attempt. The endpoint constructors can build
  such URLs, for example with a port above 65535 or an empty host
  (`InvalidUriReportsThenRetries`).
- Written without arguments, `new SocketEndpoint()` is the struct's default
  value, with a null URL; it does not run `SocketEndpoint(bool ssl = false)`.
  The configuration models that value as a missing endpoint (`None`), which
  validation rejects.
- `SendAsync` and `DisconnectAsync` dereference the socket, which is null before
  the first `ConnectAsync`. The model turns that into the error result
  `CallError.NullReference` rather than a precondition.

## Model

| member | source | states |
|---|---|---|
| Decimal.FromInt | Entities/SocketEndpoint.cs:31 | an integer is written as '-' exactly when it is negative, followed by decimal digits with no leading zero (the shortest numeral); 0 is written "0" |
| Decimal.ToIntFromInt | src/MariSocketClient/Entities/MariEventArgs/RetryEventArgs.cs:16-17 | the interpolated numeral reads back as the same integer |
| Decimal.FromIntInjective | src/MariSocketClient/Entities/MariEventArgs/RetryEventArgs.cs:16 | distinct integers are written as distinct numerals |
| RetryArgs.Message | src/MariSocketClient/Entities/MariEventArgs/RetryEventArgs.cs:9-20 | the string constructor's text is kept verbatim; an attempt message starts with "Reconnect attempt #" and is longer than its fixed parts |
| RetryArgs.ParseFromAttempt | src/MariSocketClient/Entities/MariEventArgs/RetryEventArgs.cs:14-18 | the attempt number and the interval can be read back out of an attempt message (round trip) |
| RetryArgs.FromAttemptInjective | src/MariSocketClient/Entities/MariEventArgs/RetryEventArgs.cs:16-17 | two attempt messages are equal only when their attempts and intervals are |
| RetryArgs.LimitIsNotAnAttempt | src/MariSocketClient/Clients/MariWebSocketClient.cs:269 | the limit notice differs from every attempt message and does not parse as one |
| Endpoint.FromHost | Entities/SocketEndpoint.cs:20-32 | a null host fails with ArgumentNull("host"); otherwise the fields are stored and the URL is scheme + "://" + host, then ":" + port only when a port is given |
| Endpoint.SecureIffSsl | Entities/SocketEndpoint.cs:28-31 | the URL starts with "wss://" exactly when the TLS flag is set, and with "ws://" exactly when it is not |
| Endpoint.FromPort | Entities/SocketEndpoint.cs:34-44 | host "localhost", the port and the flag stored; the URL starts with the scheme chosen by the flag |
| Endpoint.FromPortAgrees | Entities/SocketEndpoint.cs:34-44 | the port constructor builds the same endpoint as the host constructor with "localhost" and that port |
| Endpoint.Localhost | Entities/SocketEndpoint.cs:46-55 | `SocketEndpoint(ssl)`: host "localhost", no port, the flag stored; the URL starts with the scheme chosen by the flag |
| Endpoint.LocalhostAgrees | Entities/SocketEndpoint.cs:46-55 | `SocketEndpoint(ssl)` builds the same endpoint as the host constructor with "localhost" and no port |
| Endpoint.ToString | Entities/SocketEndpoint.cs:57-58 | the string form is the URL |
| Endpoint.StripSlashes | Entities/SocketEndpoint.cs:62 | no '/' is left, and the result is no longer than the path |
| Endpoint.StripSlashesCounts | Entities/SocketEndpoint.cs:62 | every '/' is removed and every other character is kept, as many times as it occurs: nothing is added or replaced |
| Endpoint.StripSlashesKeepsOthers | Entities/SocketEndpoint.cs:62 | a path without '/' is unchanged |
| Endpoint.StripSlashesAppend | Entities/SocketEndpoint.cs:62 | removing '/' works piecewise over a concatenation, so every other character is kept in order |
| Endpoint.WithPath | Entities/SocketEndpoint.cs:60-70 | host, port and flag unchanged; the old URL is a prefix of the new one; what follows is the path without its slashes, after exactly one '/' that is added only if the URL did not already end with one; the scheme is kept |
| Endpoint.WithParam | Entities/SocketEndpoint.cs:72-80 | host, port and flag unchanged; "&key=value" is appended when the URL already has a '?', otherwise "?key=value"; the result always contains '?' |
| Endpoint.LaterParamsUseAmpersand | Entities/SocketEndpoint.cs:72-80 | a second parameter is joined with '&' |
| Config.Validate | Entities/WebSocketConfig.cs:26-47 | a missing endpoint fails with ArgumentNull("Url"); otherwise a zero buffer size becomes 512, interval 10 s, attempt limit -1 and timeout 30 s, while non-zero values, the endpoint and AutoReconnect are kept, and the result has no zero field |
| Config.ValidateInstance | Entities/WebSocketConfig.cs:26-47 | the field-by-field reassignment of the copy yields exactly `Validate` |
| Config.ValidatedIsFixedPoint | Entities/WebSocketConfig.cs:26-47 | a configuration with no zero field passes validation unchanged |
| Config.ValidateIdempotent | Entities/WebSocketConfig.cs:26-47 | validating a validated configuration changes nothing |
| Config.ZeroLimitBecomesUnlimited | Entities/WebSocketConfig.cs:40-41 | an attempt limit of 0 becomes -1, so a limit of 0 cannot be configured |
| Funnel.HandleException | Utils/MariSocketClientExtensions.cs:29-37 | first an Error carrying the very exception; then a rethrow exactly when `cancel` is set; exactly one event |
| Funnel.Try | Utils/MariSocketClientExtensions.cs:13-27 | both overloads: a completed task yields its value and no effect; a failed one yields no value and goes to the handler with the given `cancel`, which defaults to false |
| Funnel.TryReportsBeforeRethrow | Utils/MariSocketClientExtensions.cs:29-37 | a failed task reports exactly one Error before any rethrow; it rethrows if and only if `cancel` is set, and otherwise reports only the Error |
| Session.Buffer | src/MariSocketClient/Clients/MariWebSocketClient.cs:218 | the receive buffer has BufferSize bytes: the delivered ones, then zeros |
| Session.NegativeLimitNeverStops | src/MariSocketClient/Clients/MariWebSocketClient.cs:264-267 | with a negative limit, a disconnected client with automatic reconnection always makes another attempt, whatever the count |
| Session.ZeroLimitNeverStops | src/MariSocketClient/Clients/MariWebSocketClient.cs:264-267 | with a configured limit of 0, validation makes every count lead to another attempt |
| Session.ReadMessage | src/MariSocketClient/Clients/MariWebSocketClient.cs:226-257 | a non-final read is ignored; a read is published if and only if it is a final text frame; a peer close is reported if and only if it is a final close frame, and then it reconnects exactly when AutoReconnect is set |
| Session.Step | src/MariSocketClient/Clients/MariWebSocketClient.cs:92-293 | each step of the chain consumes an outcome or moves closer to the end, and only appends to the event log |
| Session.Run | src/MariSocketClient/Clients/MariWebSocketClient.cs:92-293 | the chain ends either finished or waiting for an outcome that was not supplied; the event log only grows |
| SessionProperties.BackoffIsProduct | src/MariSocketClient/Clients/MariWebSocketClient.cs:277 | after n attempts the accumulated wait is n configured intervals |
| SessionProperties.BackoffIncreases | src/MariSocketClient/Clients/MariWebSocketClient.cs:277 | with a positive interval, more attempts always mean a longer wait |
| SessionProperties.HandleExPreservesConsistent | src/MariSocketClient/Clients/MariWebSocketClient.cs:170-185 | HandleExAsync keeps the counters' invariant: a connected client has both counters at 0, attempts stay at most one past the limit, and the interval is one configured interval per counted attempt |
| SessionProperties.OnFaultPreservesConsistent | src/MariSocketClient/Clients/MariWebSocketClient.cs:148-185 | a fault rethrown by Try(this, true), then HandleExAsync, keeps the counters' invariant |
| SessionProperties.OnReadPreservesConsistent | src/MariSocketClient/Clients/MariWebSocketClient.cs:214-257 | one turn of the receive loop keeps the counters' invariant |
| SessionProperties.OnReconnectPreservesConsistent | src/MariSocketClient/Clients/MariWebSocketClient.cs:259-293 | ReconnectAsync keeps the counters' invariant |
| SessionProperties.StepPreservesConsistent | src/MariSocketClient/Clients/MariWebSocketClient.cs:92-293 | every step of the chain keeps the counters' invariant |
| SessionProperties.RunPreservesConsistent | src/MariSocketClient/Clients/MariWebSocketClient.cs:92-293 | the whole chain keeps the counters' invariant |
| SessionProperties.ReconnectSkips | src/MariSocketClient/Clients/MariWebSocketClient.cs:261-265 | ReconnectAsync returns at a guard if and only if AutoReconnect is off, the client is connected, or a limit is configured and already passed; it then changes nothing and raises nothing |
| SessionProperties.LimitNoticeIsFinal | src/MariSocketClient/Clients/MariWebSocketClient.cs:267-275 | when attempts equal the limit: exactly one limit-notice Retry, attempts become limit + 1, the interval is unchanged, no reconnect is tried, and the next call changes nothing |
| SessionProperties.ConnectWhileConnectedIsNoop | src/MariSocketClient/Clients/MariWebSocketClient.cs:94-95 | ConnectAsync on a connected client changes nothing, raises nothing and consumes nothing |
| SessionProperties.AcceptedHandshakeResets | src/MariSocketClient/Clients/MariWebSocketClient.cs:108-131 | an accepted handshake sets IsConnected, raises Connected, resets attempts and interval to 0 and enters the receive loop |
| SessionProperties.CanceledHandshakeStops | src/MariSocketClient/Clients/MariWebSocketClient.cs:148-173 | a canceled handshake raises only the Error and ends the chain, with the flag and the counters untouched |
| SessionProperties.RefusedHandshakeReportsThenRetries | src/MariSocketClient/Clients/MariWebSocketClient.cs:105-185 | a handshake the transport refuses, other than by cancellation, raises Error, then Disconnected(ProtocolError, message), and clears IsConnected; when another attempt is allowed, its Retry follows, with one more attempt and one more interval |
| SessionProperties.InvalidUriReportsThenRetries | src/MariSocketClient/Clients/MariWebSocketClient.cs:105-185 | a URL the Uri parser rejects raises Disconnected(ProtocolError, message) with no Error, clears IsConnected and leaves the new socket unused; when another attempt is allowed, its Retry follows |
| SessionProperties.RefusedWithoutAutoReconnect | src/MariSocketClient/Clients/MariWebSocketClient.cs:259-262 | without automatic reconnection a refused handshake ends the chain after Error and Disconnected, with no Retry |
| SessionProperties.AttemptRound | src/MariSocketClient/Clients/MariWebSocketClient.cs:277-290 | a permitted reconnect adds one attempt and one interval and raises a Retry carrying the new values before connecting again |
| SessionProperties.RefusalRound | src/MariSocketClient/Clients/MariWebSocketClient.cs:105-185 | a failing ConnectAsync (refused, or the URL rejected) returns to ReconnectAsync with the counters untouched and no Retry |
| SessionProperties.FailingRound | src/MariSocketClient/Clients/MariWebSocketClient.cs:259-293 | one failing reconnect round: one Retry, one more attempt, one more interval |
| SessionProperties.LimitRound | src/MariSocketClient/Clients/MariWebSocketClient.cs:267-275 | at the limit the chain ends after the notice, with one more attempt counted and the interval unchanged |
| SessionProperties.RetriesUntilExhausted | src/MariSocketClient/Clients/MariWebSocketClient.cs:259-293 | with a limit N >= 0, failing connects (refused or with a rejected URL) lead to exactly one Retry per remaining attempt, then the notice; attempts end at N + 1, the interval at N intervals, and one outcome is used per remaining attempt |
| SessionProperties.RetriesBeforeLimit | src/MariSocketClient/Clients/MariWebSocketClient.cs:277-293 | the same, from below the limit: one failing round, then the rest of the chain |
| SessionProperties.ExactRetryCount | src/MariSocketClient/Clients/MariWebSocketClient.cs:259-293 | from reset, with a limit N >= 0 and every connect failing: exactly N + 1 Retry events, the k-th attempt announcing k intervals and the last being the limit notice; N + 1 connects are tried and the client stays disconnected |
| SessionProperties.UnlimitedKeepsRetrying | src/MariSocketClient/Clients/MariWebSocketClient.cs:264-293 | with no limit, every failing connect is followed by another Retry; the chain stops only when no outcome is left, with one attempt and one interval counted per Retry |
| SessionProperties.KthAttemptWaitsKIntervals | src/MariSocketClient/Clients/MariWebSocketClient.cs:277-280 | from reset, the k-th attempt's Retry announces attempt k and k configured intervals |
| SessionProperties.AnnouncedIntervalsIncrease | src/MariSocketClient/Clients/MariWebSocketClient.cs:277-280 | the intervals announced by successive attempt messages strictly increase |
| SessionProperties.NonFinalReadIsDropped | src/MariSocketClient/Clients/MariWebSocketClient.cs:228-229 | a read that does not end a message raises nothing and changes nothing but the socket state |
| SessionProperties.FinalTextReadPublishes | src/MariSocketClient/Clients/MariWebSocketClient.cs:231-235 | a final text read raises exactly one Message, carrying the decoded receive buffer |
| SessionProperties.CloseReadDisconnectsFirst | src/MariSocketClient/Clients/MariWebSocketClient.cs:236-256 | a final close read raises Disconnected with the peer's status first, whatever the acknowledgement does; without AutoReconnect it sends "Closed by remote" only on a still-open socket; with it, ReconnectAsync follows |
| SessionProperties.FailedCloseAckReports | src/MariSocketClient/Clients/MariWebSocketClient.cs:236-247 | when acknowledging the peer's close fails, Disconnected is followed by Error and then by HandleExAsync: a second Disconnected and a reconnect, or nothing more on a cancellation; nothing is written and the socket is aborted |
| SessionProperties.RemoteCloseWhileConnectedDoesNotRetry | src/MariSocketClient/Clients/MariWebSocketClient.cs:236-262 | with AutoReconnect, a peer close while IsConnected is set ends the chain with Disconnected only: no Retry, and the flag stays set |
| SessionProperties.FailedReadReports | src/MariSocketClient/Clients/MariWebSocketClient.cs:155-185 | a failed read raises Error; unless canceled, it then raises Disconnected(ProtocolError), clears IsConnected and enters ReconnectAsync |
| ClientFields.InitialIsConsistent | src/MariSocketClient/Clients/MariWebSocketClient.cs:26-31 | a new client starts with the counters' invariant in force |
| ClientFields.AddHeader | src/MariSocketClient/Clients/MariWebSocketClient.cs:330-331 | the header is stored if and only if the key was absent; the first value stays; one key is added at most and every other header keeps its value |
| ClientFields.RemoveHeader | src/MariSocketClient/Clients/MariWebSocketClient.cs:336-337 | the removed value is returned if and only if the key was present; only that key goes, and the other values are unchanged |
| ClientFields.RemoveAfterAdd | src/MariSocketClient/Clients/MariWebSocketClient.cs:330-337 | removing a newly added key returns its value and the original headers |
| ClientFields.AddAfterRemove | src/MariSocketClient/Clients/MariWebSocketClient.cs:330-337 | adding a removed key's value back restores the original headers |
| ClientFields.AddHeaderKeepsFirst | src/MariSocketClient/Clients/MariWebSocketClient.cs:330-331 | adding under an existing key fails and keeps the first value |
| ClientFields.Send | src/MariSocketClient/Clients/MariWebSocketClient.cs:203-212 | no socket gives a null-reference error; on a socket that is not open nothing changes; on an open one the text frame is written, or on a fault exactly one Error is raised, nothing is written and the socket is no longer open; no other field changes |
| ClientFields.Disconnect | src/MariSocketClient/Clients/MariWebSocketClient.cs:187-198 | no socket gives a null-reference error; on a socket that is not open nothing changes; on an open one IsConnected is cleared and the socket is no longer open, and either "Close requested by client." is written or, on a fault, exactly one Error is raised; no other field changes |
| ClientFields.DisconnectTwice | src/MariSocketClient/Clients/MariWebSocketClient.cs:187-198 | a second DisconnectAsync changes nothing |
| ClientFields.SendInOrder | src/MariSocketClient/Clients/MariWebSocketClient.cs:203-212 | texts sent one after the other on an open socket are written in that order |
| ClientFields.SendAfterFaultIsSilent | src/MariSocketClient/Clients/MariWebSocketClient.cs:203-212 | after a faulted send, later sends write nothing and raise nothing |
| ClientFields.SendAfterDisconnectIsSilent | src/MariSocketClient/Clients/MariWebSocketClient.cs:187-212 | after DisconnectAsync, SendAsync writes nothing and raises nothing |
| ClientFields.Dispose | src/MariSocketClient/Clients/MariWebSocketClient.cs:306-328 | when not already disposed, both cancellation sources are canceled, an existing socket is aborted and the headers are cleared; every other field, IsDisposed included, is unchanged |
| ClientFields.DisposeIdempotent | src/MariSocketClient/Clients/MariWebSocketClient.cs:306-328 | disposing twice leaves the same fields as disposing once |
| ClientFields.DisposedIsSilent | src/MariSocketClient/Clients/MariWebSocketClient.cs:187-212 | after Dispose, SendAsync and DisconnectAsync change nothing, because the socket is no longer open |
| ClientFields.Connect | src/MariSocketClient/Clients/MariWebSocketClient.cs:92-153 | the chain's fields are those `Session.Run` leaves; the headers, IsDisposed and the cancellation sources are unchanged |
| ClientFields.ConnectPreservesConsistent | src/MariSocketClient/Clients/MariWebSocketClient.cs:92-153 | ConnectAsync keeps the counters' invariant |
| ClientFields.ConnectWhileConnected | src/MariSocketClient/Clients/MariWebSocketClient.cs:94-95 | ConnectAsync on a connected client leaves every field as it was |
| ClientFields.OperationsPreserveConsistent | src/MariSocketClient/Clients/MariWebSocketClient.cs:187-328 | SendAsync, DisconnectAsync and Dispose keep the counters' invariant |
| Client.WebSocketClient.constructor | src/MariSocketClient/Clients/MariWebSocketClient.cs:26-50 | a new client is disconnected, with no socket, no headers, both counters at 0 and an empty log |
| Client.WebSocketClient.Create | src/MariSocketClient/Clients/MariWebSocketClient.cs:33-50 | construction fails exactly when validation does, with its error; otherwise the client holds the validated configuration |
| Client.WebSocketClient.TryAddHeader | src/MariSocketClient/Clients/MariWebSocketClient.cs:330-331 | the header map and the result are those of `AddHeader`; nothing else changes |
| Client.WebSocketClient.TryRemoveHeader | src/MariSocketClient/Clients/MariWebSocketClient.cs:336-337 | the header map and the result are those of `RemoveHeader`; nothing else changes |
| Client.WebSocketClient.ClearHeaders | src/MariSocketClient/Clients/MariWebSocketClient.cs:333-334 | the header map is emptied and nothing else changes |
| Client.WebSocketClient.AddHeaders | src/MariSocketClient/Clients/MariWebSocketClient.cs:295-304 | the headers are copied onto the socket only when not already started; afterwards AlreadyStarted is set |
| Client.WebSocketClient.CopyHeaders | src/MariSocketClient/Clients/MariWebSocketClient.cs:302-303 | the loop sets every header on the socket, the client's value replacing any earlier one under the same key |
| Client.WebSocketClient.NewSocket | src/MariSocketClient/Clients/MariWebSocketClient.cs:100-103 | a new socket is created and, because AlreadyStarted is reset first, it carries exactly the client's current headers |
| Client.WebSocketClient.HandleFault | src/MariSocketClient/Clients/MariWebSocketClient.cs:148-185 | the fields change as `Session.OnFault` says: Error; then, unless canceled, Disconnected, the flag cleared and ReconnectAsync next |
| Client.WebSocketClient.HandleEx | src/MariSocketClient/Clients/MariWebSocketClient.cs:170-185 | the fields change as `Session.HandleEx` says: unless canceled, Disconnected, the flag cleared and ReconnectAsync next |
| Client.WebSocketClient.Handshake | src/MariSocketClient/Clients/MariWebSocketClient.cs:100-152 | the fields change as `Session.OnHandshake` says, and the new socket carries the client's headers |
| Client.WebSocketClient.ReceiveOne | src/MariSocketClient/Clients/MariWebSocketClient.cs:214-224 | one turn of the receive loop changes the fields as `Session.OnRead` says |
| Client.WebSocketClient.ReadMessage | src/MariSocketClient/Clients/MariWebSocketClient.cs:226-257 | the fields change as `Session.OnMessage` says |
| Client.WebSocketClient.Reconnect | src/MariSocketClient/Clients/MariWebSocketClient.cs:259-293 | the fields change as `Session.OnReconnect` says |
| Client.WebSocketClient.Advance | src/MariSocketClient/Clients/MariWebSocketClient.cs:92-293 | one step changes the fields as `Session.Step` says |
| Client.WebSocketClient.Drive | src/MariSocketClient/Clients/MariWebSocketClient.cs:92-293 | the loop leaves the fields where `Session.Run` ends; once a handshake has been used, the socket carries the client's headers |
| Client.WebSocketClient.Connect | src/MariSocketClient/Clients/MariWebSocketClient.cs:92-153 | all fields and the unused outcomes are those of `ClientFields.Connect`, so every `SessionProperties` lemma applies to the object |
| Client.WebSocketClient.Send | src/MariSocketClient/Clients/MariWebSocketClient.cs:203-212 | the result and all fields are those of `ClientFields.Send` |
| Client.WebSocketClient.Disconnect | src/MariSocketClient/Clients/MariWebSocketClient.cs:187-198 | the result and all fields are those of `ClientFields.Disconnect` |
| Client.WebSocketClient.Dispose | src/MariSocketClient/Clients/MariWebSocketClient.cs:306-328 | all fields are those of `ClientFields.Dispose` |

## Left out

- Socket I/O (`ClientWebSocket` connect, send, receive, close, abort and release) is not modelled. Each outcome is supplied by the caller, and the transport's state changes follow the assumptions listed above.
- Concurrency and timing are not modelled: `Task.Run`, `Task.Delay`, the connection time-out source and `ConfigureAwait`. The chain runs sequentially, and the backoff delay is a step that does nothing.
- `Client.WebSocketClient.Connect`: `blockUntilDispose` is not modelled. The detached `Task.Run` of the Connected event and of the receive loop is treated like the awaited branch.
- `Client.WebSocketClient.Connect`: how the cancellation token is chosen (the caller's or the connect source's) is not modelled. A cancellation is a fault whose exception is a `TaskCanceledException`.
- Calls made after `Dispose` on disposed cancellation sources are not modelled. After `Dispose` the model only knows that the sources were canceled.
- Exceptions thrown by event handlers are not modelled. Raising an event appends it to the log, and the handler registration of lines 52-90 is left out.
- The process-wide certificate callback of the constructor is left out. It is a global side effect outside the client.
- `SendAsync(object)` (JSON serialisation) is left out. So are UTF-8 encoding of sent text and UTF-8 decoding of received buffers: received text is kept as the raw buffer (`Utf8(bytes)`).
- `SocketEndpoint.ToUri` is not modelled. It only parses the URL with the platform's `Uri`.
- `RetryArgs.Message`: intervals are whole seconds, so the `double` `TotalSeconds` and its culture-dependent formatting are not modelled.
- `Config.Validate`: durations are whole seconds (`nat`), so negative or fractional `TimeSpan`s are not modelled. `HasNoContent` is taken to mean "equals the type's default value", and an endpoint left at its default is `None`.
- `Session.OnReconnect`: `ReconnectAttempts` and `ReconnectInterval` are unbounded. The `long` and `TimeSpan` overflow, and the `Int32` conversion of the time-out, are not modelled. Nor is the limit of `Task.Delay` (line 284): once the accumulated interval passes `Int32.MaxValue` milliseconds (about 2,147,483 seconds), the delay throws, `ReconnectAsync().Try(this)` (lines 182-184) raises Error after that Retry, and the chain ends there.
- `SessionProperties.UnlimitedKeepsRetrying`: holds only while the accumulated reconnect interval stays within `Task.Delay`'s limit of `Int32.MaxValue` milliseconds; past it the chain ends with an Error, as the line above says.
- `ClientFields.Send`, `ClientFields.AddHeader`, `ClientFields.RemoveHeader`, `Client.WebSocketClient.Send`, `Client.WebSocketClient.TryAddHeader`, `Client.WebSocketClient.TryRemoveHeader`: strings are non-null throughout. The ArgumentNullException of `Encoding.UTF8.GetBytes` on a null message (line 208, before the `Try`, so it reaches the caller) and of the header dictionary on a null key (lines 331 and 337) is not modelled.
- Header names that the platform's `SetRequestHeader` rejects (the empty name, for one) are not modelled. `AddHeaders` runs before ConnectAsync's `try`, so such a name makes ConnectAsync throw to its caller before any event. The headers cannot change during a chain that runs sequentially, so the rejection on a nested reconnect (an Error from `Try(this)`, then the end of the chain) cannot arise here either.
- `Endpoint.WithPath`: strings are taken to be non-null, so a null path (a NullReferenceException at `Replace`) is not modelled. `EndsWith("/")` is taken as an ordinal comparison; the culture-sensitive comparison that skips ignorable characters is not modelled.
- `Endpoint.WithParam`: key and value are taken to be non-null; interpolation would write a null one as the empty string.
- `Decimal.FromInt`: interpolation formats numbers with the current culture; the model always writes '-' for a negative value, so a culture whose negative sign differs (U+2212 under ICU, for one) is not modelled, and nor is any other culture-specific digit or sign formatting.
- `Funnel.Try`: the library's `TryAsync` is not part of this model. It is taken to pass a completed task's value through, and to give no value when it swallows a fault.

=== FILE: client.dfy ===
/**
 * The client object. Its fields are updated in place by its methods; each
 * method is proved to leave the fields as the matching function of module
 * ClientFields says. The transport is not modelled: what it reports (the
 * outcome of each handshake, each read, each send and each close) is passed
 * in by the caller.
 */
module Client {
  import opened Wrappers
  import opened Events
  import opened Config
  import opened Session
  import opened ClientFields
  import Funnel

  class WebSocketClient {
    const config: WebSocketConfig

    var isDisposed: bool
    var isConnected: bool
    var reconnectAttempts: nat
    var reconnectInterval: nat
    var alreadyStarted: bool
    var headers: map<string, string>
    var hasSocket: bool
    var socket: SocketState
    var socketHeaders: map<string, string>
    var connectCanceled: bool
    var mainCanceled: bool
    var events: seq<Event>
    var sent: seq<Outgoing>

    /** All mutable fields as one value. */
    function Snapshot(): Fields
      reads this
    {
      Fields(isDisposed, isConnected, reconnectAttempts, reconnectInterval, alreadyStarted, headers,
             hasSocket, socket, socketHeaders, connectCanceled, mainCanceled, events, sent)
    }

    /** The part of the fields the connection chain works on. */
    function Chain(): State
      reads this`isConnected, this`reconnectAttempts, this`reconnectInterval, this`socket, this`events, this`sent
    {
      State(isConnected, reconnectAttempts, reconnectInterval, socket, events, sent)
    }

    /** A client over an already validated configuration, with every field at its initial value. */
    constructor (validated: WebSocketConfig)
      requires IsValidated(validated)
      ensures config == validated && Snapshot() == Initial
    {
      config := validated;
      isDisposed, isConnected := false, false;
      reconnectAttempts, reconnectInterval := 0, 0;
      alreadyStarted := false;
      headers := map[];
      hasSocket, socket, socketHeaders := false, NoneState, map[];
      connectCanceled, mainCanceled := false, false;
      events, sent := [], [];
    }

    /** The public constructor: validation first, which fails when the endpoint is missing. */
    static method Create(cfg: WebSocketConfig) returns (r: Result<WebSocketClient, ConfigError>)
      ensures r.Failure? <==> Validate(cfg).Failure?
      ensures r.Failure? ==> r.error == Validate(cfg).error
      ensures r.Success? ==> fresh(r.value) && r.value.config == Validate(cfg).value
      ensures r.Success? ==> r.value.Snapshot() == Initial
    {
      var validated := ValidateInstance(cfg);
      match validated
      case Failure(e) => r := Failure(e);
      case Success(c) =>
        var client := new WebSocketClient(c);
        r := Success(client);
    }

    // ---------------------------------------------------------- headers

    method TryAddHeader(key: string, value: string) returns (added: bool)
      modifies this`headers
      ensures (added, headers) == AddHeader(old(headers), key, value)
      ensures Snapshot() == old(Snapshot()).(headers := headers)
    {
      added := key !in headers;
      if added {
        headers := headers[key := value];
      }
    }

    method TryRemoveHeader(key: string) returns (value: Option<string>)
      modifies this`headers
      ensures (value, headers) == RemoveHeader(old(headers), key)
      ensures Snapshot() == old(Snapshot()).(headers := headers)
    {
      if key in headers {
        value := Some(headers[key]);
        headers := headers - {key};
      } else {
        value := None;
      }
    }

    method ClearHeaders()
      modifies this`headers
      ensures Snapshot() == old(Snapshot()).(headers := map[])
    {
      headers := map[];
    }

    /** Copies the headers onto the socket, once per ConnectAsync. */
    method AddHeaders()
      modifies this`alreadyStarted, this`socketHeaders
      ensures alreadyStarted
      ensures socketHeaders == if old(alreadyStarted) then old(socketHeaders) else old(socketHeaders) + headers
    {
      if alreadyStarted {
        return;
      }
      alreadyStarted := true;
      CopyHeaders();
    }

    /** The foreach of AddHeaders: each header set on the socket, a later value replacing an earlier one. */
    method CopyHeaders()
      modifies this`socketHeaders
      ensures socketHeaders == old(socketHeaders) + headers
    {
      var pending := headers.Keys;
      while pending != {}
        invariant pending <= headers.Keys
        invariant socketHeaders == old(socketHeaders) + (headers - pending)
        decreases |pending|
      {
        var key :| key in pending;
        SetOneMore(old(socketHeaders), headers, pending, key);
        socketHeaders := socketHeaders[key := headers[key]];
        pending := pending - {key};
      }
      NothingPending(headers);
    }

    // ------------------------------------------------- the connection chain

    /** A fault rethrown by Try(this, true): its Error, then HandleExAsync. */
    method HandleFault(f: Fault) returns (mode: Mode)
      modifies this`events, this`isConnected
      ensures Next(Chain(), mode) == OnFault(old(Chain()), f)
    {
      events := events + Funnel.Raised(Funnel.HandleException(f, true));
      mode := HandleEx(f);
    }

    /** HandleExAsync: up to, not including, its call of ReconnectAsync. */
    method HandleEx(f: Fault) returns (mode: Mode)
      modifies this`events, this`isConnected
      ensures Next(Chain(), mode) == Session.HandleEx(old(Chain()), f)
    {
      if f.isTaskCanceled {
        return Idle;
      }
      events := events + [Disconnected(ProtocolError, Chars(f.message))];
      isConnected := false;
      mode := Reconnecting(false);
    }

    /** ConnectAsync past its IsConnected guard: a new socket, the headers, the URL and the handshake. */
    method Handshake(h: Handshake) returns (mode: Mode)
      requires !isConnected
      modifies this`hasSocket, this`socket, this`socketHeaders, this`alreadyStarted
      modifies this`isConnected, this`events, this`reconnectAttempts, this`reconnectInterval
      ensures Next(Chain(), mode) == OnHandshake(old(Chain()), h)
      ensures hasSocket && alreadyStarted && socketHeaders == headers
    {
      NewSocket();
      match h
      case Accepted =>
        isConnected := true;
        socket := Open;
        events := events + [Connected];
        reconnectAttempts, reconnectInterval := 0, 0;
        mode := Receiving;
      case Refused(f) =>
        socket := Closed;
        mode := HandleFault(f);
      case InvalidUri(f) =>
        mode := HandleEx(f);
    }

    /** A new socket replaces the old one; AlreadyStarted is reset, so AddHeaders sets every header on it. */
    method NewSocket()
      modifies this`hasSocket, this`socket, this`socketHeaders, this`alreadyStarted
      ensures hasSocket && socket == NoneState && alreadyStarted && socketHeaders == headers
    {
      hasSocket, socket, socketHeaders := true, NoneState, map[];
      alreadyStarted := false;
      AddHeaders();
      NoHeadersBefore(headers);
    }

    /** One turn of ReceiveAsync's loop on an open socket: the receive call, then ReadMessageAsync. */
    method ReceiveOne(r: Read) returns (mode: Mode)
      requires socket == Open
      modifies this`socket, this`events, this`sent, this`isConnected
      ensures Next(Chain(), mode) == OnRead(config, old(Chain()), r)
    {
      match r
      case ReadFailed(f) =>
        socket := Aborted;
        mode := HandleFault(f);
      case Received(frame, after, ack) =>
        socket := after;
        mode := ReadMessage(frame, ack);
    }

    /**
     * ReadMessageAsync: a final text frame is published, a final close frame
     * reported, then either acknowledged (automatic reconnection off) or
     * followed by ReconnectAsync.
     */
    method ReadMessage(frame: Frame, ack: Option<Fault>) returns (mode: Mode)
      modifies this`socket, this`events, this`sent, this`isConnected
      ensures Next(Chain(), mode) == OnMessage(config, old(Chain()), frame, ack)
    {
      var text := Utf8(Buffer(frame.data, config.bufferSize));
      mode := Receiving;
      if !frame.endOfMessage {
        return;
      }
      if frame.messageType == TextFrame {
        events := events + [Message(text)];
      } else if frame.messageType == CloseFrame {
        events := events + [Disconnected(frame.closeStatus, text)];
        if !config.autoReconnect {
          if socket == Open {
            match ack
            case None =>
              socket := Closed;
              sent := sent + [SentClose(NormalClosure, ClosedByRemote)];
            case Some(f) =>
              socket := Aborted;
              mode := HandleFault(f);
          }
        } else {
          mode := Reconnecting(true);
        }
      }
    }

    /** ReconnectAsync up to its call of ConnectAsync(true). */
    method Reconnect(afterClose: bool) returns (mode: Mode)
      modifies this`events, this`reconnectAttempts, this`reconnectInterval
      ensures Next(Chain(), mode) == OnReconnect(config, old(Chain()), afterClose)
    {
      var resume := if afterClose then Receiving else Idle;
      if !config.autoReconnect || isConnected {
        return resume;
      }
      if reconnectAttempts > config.maxReconnectAttempts && config.maxReconnectAttempts >= 0 {
        return resume;
      }
      if reconnectAttempts == config.maxReconnectAttempts {
        events := events + [Retry(RetryArgs.FromMessage(RetryArgs.LimitMessage))];
        reconnectAttempts := reconnectAttempts + 1;
        return resume;
      }
      reconnectInterval := reconnectInterval + config.reconnectInterval;
      reconnectAttempts := reconnectAttempts + 1;
      events := events + [Retry(RetryArgs.FromAttempt(reconnectAttempts, reconnectInterval))];
      mode := Handshaking;
    }

    /**
     * ConnectAsync, with the reconnect chain it may start, until the chain ends
     * or the transport has nothing more to report; returns the handshake
     * outcomes and the reads left over.
     */
    method Connect(hs: seq<Handshake>, rs: seq<Read>) returns (restHandshakes: seq<Handshake>, restReads: seq<Read>)
      modifies this`hasSocket, this`socket, this`socketHeaders, this`alreadyStarted
      modifies this`isConnected, this`events, this`sent, this`reconnectAttempts, this`reconnectInterval
      ensures (Snapshot(), restHandshakes, restReads) == ClientFields.Connect(config, old(Snapshot()), hs, rs)
    {
      ghost var start := Snapshot();
      var mode;
      mode, restHandshakes, restReads := Drive(hs, rs);
      ghost var final := Snapshot();
      assert ChainOf(final) == Chain();
      ConnectEnds(config, start, final, hs, rs, Machine(Chain(), mode, restHandshakes, restReads));
    }

    /** The steps of the chain, one per transport report, until it stops. */
    method Drive(hs: seq<Handshake>, rs: seq<Read>) returns (mode: Mode, restHandshakes: seq<Handshake>, restReads: seq<Read>)
      modifies this`hasSocket, this`socket, this`socketHeaders, this`alreadyStarted
      modifies this`isConnected, this`events, this`sent, this`reconnectAttempts, this`reconnectInterval
      ensures Machine(Chain(), mode, restHandshakes, restReads) == Run(config, Machine(old(Chain()), Handshaking, hs, rs))
      ensures |restHandshakes| <= |hs|
      ensures |restHandshakes| < |hs| ==> hasSocket && alreadyStarted && socketHeaders == headers
      ensures |restHandshakes| == |hs| ==>
                hasSocket == old(hasSocket) && alreadyStarted == old(alreadyStarted)
                && socketHeaders == old(socketHeaders)
    {
      ghost var target := Run(config, Machine(Chain(), Handshaking, hs, rs));
      mode := Handshaking;
      restHandshakes, restReads := hs, rs;
      while !Stopped(Machine(Chain(), mode, restHandshakes, restReads))
        invariant Run(config, Machine(Chain(), mode, restHandshakes, restReads)) == target
        invariant |restHandshakes| <= |hs|
        invariant |restHandshakes| < |hs| ==> hasSocket && alreadyStarted && socketHeaders == headers
        invariant |restHandshakes| == |hs| ==>
                    hasSocket == old(hasSocket) && alreadyStarted == old(alreadyStarted)
                    && socketHeaders == old(socketHeaders)
        decreases Measure(Machine(Chain(), mode, restHandshakes, restReads))
      {
        ghost var before := Machine(Chain(), mode, restHandshakes, restReads);
        mode, restHandshakes, restReads := Advance(mode, restHandshakes, restReads);
        assert Run(config, before) == Run(config, Step(config, before));
      }
    }

    /** One step of the chain: the guard of ConnectAsync and a handshake, a read, or ReconnectAsync. */
    method Advance(mode: Mode, hs: seq<Handshake>, rs: seq<Read>)
      returns (next: Mode, restHandshakes: seq<Handshake>, restReads: seq<Read>)
      requires !Stopped(Machine(Chain(), mode, hs, rs))
      modifies this`hasSocket, this`socket, this`socketHeaders, this`alreadyStarted
      modifies this`isConnected, this`events, this`sent, this`reconnectAttempts, this`reconnectInterval
      ensures Machine(Chain(), next, restHandshakes, restReads) == Step(config, Machine(old(Chain()), mode, hs, rs))
      ensures |restHandshakes| < |hs| ==> hasSocket && alreadyStarted && socketHeaders == headers
      ensures |restHandshakes| == |hs| ==>
                hasSocket == old(hasSocket) && alreadyStarted == old(alreadyStarted)
                && socketHeaders == old(socketHeaders)
    {
      restHandshakes, restReads := hs, rs;
      if mode == Handshaking {
        if isConnected {
          next := Idle;
        } else {
          next := Handshake(hs[0]);
          restHandshakes := hs[1..];
        }
      } else if mode == Receiving {
        if socket != Open {
          next := Idle;
        } else {
          next := ReceiveOne(rs[0]);
          restReads := rs[1..];
        }
      } else {
        next := Reconnect(mode.afterClose);
      }
    }

    // ------------------------------------------------- send, close, dispose

    method Send(message: string, fault: Option<Fault>) returns (r: Result<(), CallError>)
      modifies this`sent, this`socket, this`events
      ensures (r, Snapshot()) == ClientFields.Send(old(Snapshot()), message, fault)
    {
      if !hasSocket {
        return Failure(NullReference);
      }
      r := Success(());
      if socket != Open {
        return;
      }
      match fault
      case None => sent := sent + [SentText(message)];
      case Some(f) =>
        socket := Aborted;
        events := events + Funnel.Raised(Funnel.Try<()>(Funnel.Faulted(f)).effects);
    }

    method Disconnect(fault: Option<Fault>) returns (r: Result<(), CallError>)
      modifies this`sent, this`socket, this`events, this`isConnected
      ensures (r, Snapshot()) == ClientFields.Disconnect(old(Snapshot()), fault)
    {
      if !hasSocket {
        return Failure(NullReference);
      }
      r := Success(());
      if socket != Open {
        return;
      }
      match fault {
        case None =>
          socket := Closed;
          sent := sent + [SentClose(NormalClosure, CloseRequested)];
        case Some(f) =>
          socket := Aborted;
          events := events + Funnel.Raised(Funnel.Try<()>(Funnel.Faulted(f)).effects);
      }
      isConnected := false;
    }

    method Dispose()
      modifies this`connectCanceled, this`mainCanceled, this`socket, this`headers
      ensures Snapshot() == ClientFields.Dispose(old(Snapshot()))
    {
      if isDisposed {
        return;
      }
      connectCanceled := true;
      mainCanceled := true;
      if hasSocket {
        socket := Aborted;
      }
      headers := map[];
    }
  }
}

=== FILE: client_fields.dfy ===
/**
 * The client's mutable fields as one value, and what each public operation of
 * the client does to them. The class in module Client is proved to update its
 * fields exactly as these functions say.
 */
module ClientFields {
  import opened Wrappers
  import opened Events
  import opened Config
  import opened Session
  import SessionProperties

  /**
   * IsDisposed, IsConnected, ReconnectAttempts, ReconnectInterval and
   * AlreadyStarted; the header dictionary; whether a socket has been created,
   * its state and the request headers set on it; whether the two cancellation
   * sources were canceled; the events raised and the frames written.
   */
  datatype Fields = Fields(
    isDisposed: bool,
    isConnected: bool,
    reconnectAttempts: nat,
    reconnectInterval: nat,
    alreadyStarted: bool,
    headers: map<string, string>,
    hasSocket: bool,
    socket: SocketState,
    socketHeaders: map<string, string>,
    connectCanceled: bool,
    mainCanceled: bool,
    events: seq<Event>,
    sent: seq<Outgoing>)

  /** A public call made before any socket exists dereferences the null socket. */
  datatype CallError = NullReference

  const CloseRequested := "Close requested by client."

  /** The fields of a newly constructed client. */
  const Initial := Fields(false, false, 0, 0, false, map[], false, NoneState, map[], false, false, [], [])

  /** The part of the fields the connection chain reads and writes. */
  function ChainOf(f: Fields): (s: State)
    ensures s.connected == f.isConnected && s.attempts == f.reconnectAttempts
    ensures s.interval == f.reconnectInterval && s.socket == f.socket
    ensures s.events == f.events && s.sent == f.sent
  {
    State(f.isConnected, f.reconnectAttempts, f.reconnectInterval, f.socket, f.events, f.sent)
  }

  /** The fields with the chain's part replaced. */
  function WithChain(f: Fields, s: State): (r: Fields)
    ensures ChainOf(r) == s
    ensures r.headers == f.headers && r.isDisposed == f.isDisposed
    ensures r.hasSocket == f.hasSocket && r.socketHeaders == f.socketHeaders && r.alreadyStarted == f.alreadyStarted
    ensures r.connectCanceled == f.connectCanceled && r.mainCanceled == f.mainCanceled
  {
    f.(isConnected := s.connected, reconnectAttempts := s.attempts, reconnectInterval := s.interval,
       socket := s.socket, events := s.events, sent := s.sent)
  }

  /** A new client starts with the counters' invariant in force. */
  lemma InitialIsConsistent(cfg: WebSocketConfig)
    ensures SessionProperties.Consistent(cfg, ChainOf(Initial))
  {
  }

  // ------------------------------------------------------------ headers

  /** TryAddHeader: the first value stored under a key stays; reports whether it was stored. */
  function AddHeader(headers: map<string, string>, key: string, value: string): (r: (bool, map<string, string>))
    ensures r.0 <==> key !in headers
    ensures key in r.1 && r.1[key] == (if r.0 then value else headers[key])
    ensures r.1.Keys == headers.Keys + {key}
    ensures forall k | k in headers && k != key :: r.1[k] == headers[k]
  {
    if key in headers then (false, headers) else (true, headers[key := value])
  }

  /** TryRemoveHeader: the removed value, if the key was present. */
  function RemoveHeader(headers: map<string, string>, key: string): (r: (Option<string>, map<string, string>))
    ensures r.0.Some? <==> key in headers
    ensures r.0.Some? ==> r.0.value == headers[key]
    ensures r.1.Keys == headers.Keys - {key}
    ensures forall k | k in r.1 :: r.1[k] == headers[k]
  {
    if key in headers then (Some(headers[key]), headers - {key}) else (None, headers)
  }

  /** Adding a new key and removing it again gives back its value and the original headers. */
  lemma RemoveAfterAdd(headers: map<string, string>, key: string, value: string)
    requires key !in headers
    ensures RemoveHeader(AddHeader(headers, key, value).1, key) == (Some(value), headers)
  {
    assert headers[key := value] - {key} == headers;
  }

  /** Removing a key and adding its value back gives back the original headers. */
  lemma AddAfterRemove(headers: map<string, string>, key: string)
    requires key in headers
    ensures AddHeader(RemoveHeader(headers, key).1, key, headers[key]) == (true, headers)
  {
    assert (headers - {key})[key := headers[key]] == headers;
  }

  /** Adding under an existing key fails and changes nothing, whatever the value. */
  lemma AddHeaderKeepsFirst(headers: map<string, string>, key: string, first: string, second: string)
    requires key !in headers
    ensures var once := AddHeader(headers, key, first).1;
            AddHeader(once, key, second) == (false, once) && once[key] == first
  {
  }

  /** Setting one more pending header on the socket. */
  lemma SetOneMore(base: map<string, string>, headers: map<string, string>, pending: set<string>, key: string)
    requires key in pending && pending <= headers.Keys
    ensures (base + (headers - pending))[key := headers[key]] == base + (headers - (pending - {key}))
  {
  }

  lemma NothingPending(headers: map<string, string>)
    ensures headers - {} == headers
  {
  }

  /** A new socket carries no headers, so after AddHeaders it carries exactly the client's. */
  lemma NoHeadersBefore(headers: map<string, string>)
    ensures map[] + headers == headers
  {
  }

  // ---------------------------------------------------- send and close

  /**
   * SendAsync(string): a text frame on an open socket. A fault is reported as
   * an Error and swallowed; the transport is then aborted.
   */
  function Send(f: Fields, message: string, fault: Option<Fault>): (r: (Result<(), CallError>, Fields))
    ensures !f.hasSocket <==> r.0.Failure?
    ensures !(f.hasSocket && f.socket == Open) ==> r.1 == f
    ensures f.hasSocket && f.socket == Open && fault.None? ==>
              r.1.sent == f.sent + [SentText(message)] && r.1.events == f.events && r.1.socket == Open
    ensures f.hasSocket && f.socket == Open && fault.Some? ==>
              r.1.events == f.events + [Error(fault.value)] && r.1.sent == f.sent && r.1.socket != Open
    ensures r.1 == f.(sent := r.1.sent, events := r.1.events, socket := r.1.socket)
  {
    if !f.hasSocket then (Failure(NullReference), f)
    else if f.socket != Open then (Success(()), f)
    else match fault
      case None => (Success(()), f.(sent := f.sent + [SentText(message)]))
      case Some(e) => (Success(()), f.(socket := Aborted, events := f.events + [Error(e)]))
  }

  /**
   * DisconnectAsync: on an open socket, the client's close frame, then the
   * connection flag cleared, whether or not the close faulted (a fault is
   * reported as an Error and swallowed).
   */
  function Disconnect(f: Fields, fault: Option<Fault>): (r: (Result<(), CallError>, Fields))
    ensures !f.hasSocket <==> r.0.Failure?
    ensures !(f.hasSocket && f.socket == Open) ==> r.1 == f
    ensures f.hasSocket && f.socket == Open ==> !r.1.isConnected && r.1.socket != Open
    ensures f.hasSocket && f.socket == Open && fault.None? ==>
              r.1.sent == f.sent + [SentClose(NormalClosure, CloseRequested)] && r.1.events == f.events
    ensures f.hasSocket && f.socket == Open && fault.Some? ==>
              r.1.events == f.events + [Error(fault.value)] && r.1.sent == f.sent
    ensures r.1 == f.(sent := r.1.sent, events := r.1.events, socket := r.1.socket, isConnected := r.1.isConnected)
  {
    if !f.hasSocket then (Failure(NullReference), f)
    else if f.socket != Open then (Success(()), f)
    else match fault
      case None =>
        (Success(()), f.(socket := Closed, isConnected := false, sent := f.sent + [SentClose(NormalClosure, CloseRequested)]))
      case Some(e) =>
        (Success(()), f.(socket := Aborted, isConnected := false, events := f.events + [Error(e)]))
  }

  /** Texts sent one after the other on an open socket are written in that order. */
  lemma SendInOrder(f: Fields, first: string, second: string)
    requires f.hasSocket && f.socket == Open
    ensures var once := Send(f, first, None).1;
            Send(once, second, None).1.sent == f.sent + [SentText(first), SentText(second)]
  {
  }

  /** After a faulted send the socket is no longer open, so later sends write nothing and raise nothing. */
  lemma SendAfterFaultIsSilent(f: Fields, first: string, e: Fault, second: string, fault: Option<Fault>)
    requires f.hasSocket && f.socket == Open
    ensures var once := Send(f, first, Some(e)).1;
            Send(once, second, fault) == (Success(()), once)
  {
  }

  /** After DisconnectAsync, SendAsync writes nothing and raises nothing. */
  lemma SendAfterDisconnectIsSilent(f: Fields, close: Option<Fault>, message: string, fault: Option<Fault>)
    requires f.hasSocket
    ensures var closed := Disconnect(f, close).1;
            Send(closed, message, fault) == (Success(()), closed)
  {
  }

  /** A second DisconnectAsync changes nothing: the socket is no longer open. */
  lemma DisconnectTwice(f: Fields, first: Option<Fault>, second: Option<Fault>)
    requires f.hasSocket
    ensures var once := Disconnect(f, first).1;
            Disconnect(once, second) == (Success(()), once)
  {
  }

  /**
   * Dispose: both cancellation sources canceled, the socket aborted, the
   * headers cleared. IsDisposed is read but never set.
   */
  function Dispose(f: Fields): (r: Fields)
    ensures f.isDisposed ==> r == f
    ensures !f.isDisposed ==> r.connectCanceled && r.mainCanceled && r.headers == map[]
    ensures f.hasSocket && !f.isDisposed ==> r.socket == Aborted
    ensures !f.hasSocket ==> r.socket == f.socket
    ensures r == f.(connectCanceled := r.connectCanceled, mainCanceled := r.mainCanceled,
                    socket := r.socket, headers := r.headers)
  {
    if f.isDisposed then f
    else f.(connectCanceled := true, mainCanceled := true,
            socket := if f.hasSocket then Aborted else f.socket, headers := map[])
  }

  /** Disposing twice is the same as disposing once. */
  lemma DisposeIdempotent(f: Fields)
    ensures Dispose(Dispose(f)) == Dispose(f)
  {
  }

  /** Once disposed, SendAsync and DisconnectAsync write nothing and change nothing. */
  lemma DisposedIsSilent(f: Fields, message: string, fault: Option<Fault>)
    requires !f.isDisposed
    ensures Send(Dispose(f), message, fault).1 == Dispose(f)
    ensures Disconnect(Dispose(f), fault).1 == Dispose(f)
  {
  }

  // ------------------------------------------------------------ connect

  /**
   * ConnectAsync driven by the transport's handshake outcomes and read results:
   * the chain's part of the fields as Session.Run leaves it; once a handshake
   * has been used, a socket exists carrying the client's headers. Also returns
   * the outcomes not consumed.
   */
  function Connect(cfg: WebSocketConfig, f: Fields, hs: seq<Handshake>, rs: seq<Read>)
    : (r: (Fields, seq<Handshake>, seq<Read>))
    ensures var e := Run(cfg, Machine(ChainOf(f), Handshaking, hs, rs));
            && ChainOf(r.0) == e.state && r.1 == e.handshakes && r.2 == e.incoming
    ensures r.0.headers == f.headers && r.0.isDisposed == f.isDisposed
    ensures r.0.connectCanceled == f.connectCanceled && r.0.mainCanceled == f.mainCanceled
  {
    var e := Run(cfg, Machine(ChainOf(f), Handshaking, hs, rs));
    var g := WithChain(f, e.state);
    if |e.handshakes| < |hs| then (g.(hasSocket := true, alreadyStarted := true, socketHeaders := f.headers), e.handshakes, e.incoming)
    else (g, e.handshakes, e.incoming)
  }

  /** The fields a finished chain leaves are the ones Connect describes. */
  lemma ConnectEnds(cfg: WebSocketConfig, f: Fields, g: Fields, hs: seq<Handshake>, rs: seq<Read>, e: Machine)
    requires e == Run(cfg, Machine(ChainOf(f), Handshaking, hs, rs))
    requires ChainOf(g) == e.state && |e.handshakes| <= |hs|
    requires g.headers == f.headers && g.isDisposed == f.isDisposed
    requires g.connectCanceled == f.connectCanceled && g.mainCanceled == f.mainCanceled
    requires |e.handshakes| < |hs| ==> g.hasSocket && g.alreadyStarted && g.socketHeaders == g.headers
    requires |e.handshakes| == |hs| ==>
               g.hasSocket == f.hasSocket && g.alreadyStarted == f.alreadyStarted && g.socketHeaders == f.socketHeaders
    ensures Connect(cfg, f, hs, rs) == (g, e.handshakes, e.incoming)
  {
  }

  /** ConnectAsync keeps the counters' invariant. */
  lemma ConnectPreservesConsistent(cfg: WebSocketConfig, f: Fields, hs: seq<Handshake>, rs: seq<Read>)
    requires SessionProperties.Consistent(cfg, ChainOf(f))
    ensures SessionProperties.Consistent(cfg, ChainOf(Connect(cfg, f, hs, rs).0))
  {
    SessionProperties.RunPreservesConsistent(cfg, Machine(ChainOf(f), Handshaking, hs, rs));
  }

  /** ConnectAsync on a connected client changes nothing. */
  lemma ConnectWhileConnected(cfg: WebSocketConfig, f: Fields, hs: seq<Handshake>, rs: seq<Read>)
    requires f.isConnected
    ensures Connect(cfg, f, hs, rs) == (f, hs, rs)
  {
    SessionProperties.ConnectWhileConnectedIsNoop(cfg, ChainOf(f), hs, rs);
  }

  /** The other public operations keep the counters' invariant too. */
  lemma OperationsPreserveConsistent(cfg: WebSocketConfig, f: Fields, message: string, fault: Option<Fault>)
    requires SessionProperties.Consistent(cfg, ChainOf(f))
    ensures SessionProperties.Consistent(cfg, ChainOf(Send(f, message, fault).1))
    ensures SessionProperties.Consistent(cfg, ChainOf(Disconnect(f, fault).1))
    ensures SessionProperties.Consistent(cfg, ChainOf(Dispose(f)))
  {
  }
}

=== FILE: decimal.dfy ===
/**
 * Decimal rendering of integers, as string interpolation writes an `int` or a
 * `long` under a culture whose negative sign is '-', together with the parser
 * that inverts it.
 */
module Decimal {

  predicate IsDigit(c: char) {
    '0' <= c <= '9'
  }

  function Digit(d: nat): (c: char)
    requires d < 10
    ensures IsDigit(c)
  {
    ('0' as int + d) as char
  }

  function DigitValue(c: char): nat {
    if IsDigit(c) then c as int - '0' as int else 0
  }

  /** The shortest decimal numeral of `n`. */
  function FromNat(n: nat): (s: string)
    ensures |s| >= 1
    ensures forall i | 0 <= i < |s| :: IsDigit(s[i])
    ensures s[0] == '0' <==> n == 0
    ensures n == 0 ==> s == "0"
  {
    if n < 10 then [Digit(n)] else FromNat(n / 10) + [Digit(n % 10)]
  }

  /** A minus sign for negative values, then the numeral of the magnitude. */
  function FromInt(i: int): (s: string)
    ensures |s| >= 1
    ensures s[0] == '-' <==> i < 0
    ensures s[0] == '-' || IsDigit(s[0])
    ensures forall k | 1 <= k < |s| :: IsDigit(s[k])
    ensures i < 0 ==> |s| >= 2 && s[1] != '0'
    ensures i >= 0 ==> (s[0] == '0' <==> i == 0)
    ensures i == 0 ==> s == "0"
  {
    if i < 0 then "-" + FromNat(-i) else FromNat(i)
  }

  /** The value of a run of digits (a non-digit counts as 0). */
  function ToNat(s: string): nat {
    if s == [] then 0 else 10 * ToNat(s[..|s| - 1]) + DigitValue(s[|s| - 1])
  }

  function ToInt(s: string): int {
    if |s| > 0 && s[0] == '-' then 0 - ToNat(s[1..]) else ToNat(s)
  }

  lemma {:induction false} ToNatFromNat(n: nat)
    ensures ToNat(FromNat(n)) == n
  {
    var s := FromNat(n);
    if n >= 10 {
      assert s[..|s| - 1] == FromNat(n / 10);
      ToNatFromNat(n / 10);
    }
  }

  lemma ToIntFromInt(i: int)
    ensures ToInt(FromInt(i)) == i
  {
    if i < 0 {
      assert FromInt(i)[1..] == FromNat(-i);
      ToNatFromNat(-i);
    } else {
      ToNatFromNat(i);
    }
  }

  /** Distinct integers have distinct numerals. */
  lemma FromIntInjective(i: int, j: int)
    requires FromInt(i) == FromInt(j)
    ensures i == j
  {
    ToIntFromInt(i);
    ToIntFromInt(j);
  }
}

=== FILE: event_args.dfy ===
/**
 * The five notifications the client raises and the values they carry. Each
 * event bus is modelled as appending to one ordered log; the payload types of
 * the Disconnected, Error and Message events only store their arguments.
 */
module Events {
  import RetryArgs

  newtype byte = x: int | 0 <= x < 256

  datatype CloseStatus = NormalClosure | ProtocolError | OtherStatus(code: int)

  /** A raised exception: whether it is a TaskCanceledException, and its message. */
  datatype Fault = Fault(isTaskCanceled: bool, message: string)

  /** Text of an event: plain characters, or the UTF-8 decoding of a receive buffer. */
  datatype Text = Chars(chars: string) | Utf8(bytes: seq<byte>)

  datatype Event =
    | Connected
    | Disconnected(code: CloseStatus, reason: Text)
    | Error(cause: Fault)
    | Message(text: Text)
    | Retry(args: RetryArgs.RetryEventArgs)

  /** The payloads of the Retry events of a log, in order. */
  function Retries(log: seq<Event>): (r: seq<RetryArgs.RetryEventArgs>)
    ensures |r| <= |log|
  {
    if log == [] then []
    else (if log[0].Retry? then [log[0].args] else []) + Retries(log[1..])
  }

  lemma {:induction false} RetriesAppend(a: seq<Event>, b: seq<Event>)
    ensures Retries(a + b) == Retries(a) + Retries(b)
  {
    if a == [] {
      assert a + b == b;
    } else {
      var head := if a[0].Retry? then [a[0].args] else [];
      assert (a + b)[0] == a[0];
      assert (a + b)[1..] == a[1..] + b;
      RetriesAppend(a[1..], b);
      var x, y := Retries(a[1..]), Retries(b);
      assert Retries(a + b) == head + (x + y);
      assert head + (x + y) == (head + x) + y;
    }
  }
}

=== FILE: extensions.dfy ===
/**
 * The fault funnel: the Try extension wraps an awaited task; a failure is
 * reported as an Error event and then rethrown only when asked to.
 */
module Funnel {
  import opened Wrappers
  import opened Events

  /** What handling a failure does, in order: raise an event, or throw to the caller. */
  datatype Effect = Raise(event: Event) | Throw(fault: Fault)

  /** How an awaited task ended. */
  datatype Completion<+T> = Completed(value: T) | Faulted(fault: Fault)

  /** The effects of awaiting a wrapped task, and the value it produced if any. */
  datatype Awaited<+T> = Awaited(effects: seq<Effect>, result: Option<T>)

  /** HandleExceptionFromTryAsync: report the exception, then rethrow it iff `cancel`. */
  function HandleException(ex: Fault, cancel: bool): (effects: seq<Effect>)
    ensures |effects| >= 1 && effects[0] == Raise(Error(ex))
    ensures cancel ==> |effects| == 2 && effects[1] == Throw(ex)
    ensures !cancel ==> |effects| == 1
    ensures Raised(effects) == [Error(ex)]
  {
    [Raise(Error(ex))] + (if cancel then [Throw(ex)] else [])
  }

  predicate Rethrows(effects: seq<Effect>) {
    exists i | 0 <= i < |effects| :: effects[i].Throw?
  }

  /** The events among some effects, in order. */
  function Raised(effects: seq<Effect>): (r: seq<Event>)
    ensures |r| <= |effects|
  {
    if effects == [] then []
    else (if effects[0].Raise? then [effects[0].event] else []) + Raised(effects[1..])
  }

  /**
   * Try and Try<TResult>: one generic function serves both overloads (T is `()`
   * for a plain Task); `cancel` defaults to false.
   */
  function Try<T>(task: Completion<T>, cancel: bool := false): (r: Awaited<T>)
    ensures task.Faulted? ==> r.effects == HandleException(task.fault, cancel) && r.result == None
    ensures task.Completed? ==> r.effects == [] && r.result == Some(task.value)
  {
    match task
    case Completed(v) => Awaited([], Some(v))
    case Faulted(ex) => Awaited(HandleException(ex, cancel), None)
  }

  /** A failed task reports exactly one Error, carrying its own exception, before any rethrow. */
  lemma TryReportsBeforeRethrow<T>(ex: Fault, cancel: bool)
    ensures var r := Try<T>(Faulted(ex), cancel);
            && Raised(r.effects) == [Error(ex)]
            && r.effects[0] == Raise(Error(ex))
            && (Rethrows(r.effects) <==> cancel)
            && (!cancel ==> r.effects == [Raise(Error(ex))])
  {
    var r := Try<T>(Faulted(ex), cancel);
    if cancel {
      assert r.effects[1].Throw?;
    }
  }
}

=== FILE: retry_event_args.dfy ===
/**
 * The payload of the Retry event. Both constructors of the source compute one
 * get-only Message string, so the payload is a value holding that string.
 * Intervals are whole seconds: for those, TotalSeconds renders as a plain
 * decimal numeral.
 */
module RetryArgs {
  import opened Wrappers
  import Decimal

  /**
   * The two constructors of the source. Each computes the get-only Message
   * once; the value records which constructor built it and Message renders it.
   */
  datatype RetryEventArgs = FromMessage(text: string) | FromAttempt(attempt: int, intervalSeconds: nat)

  /** The notice sent once the attempt limit is hit (the interpolated name of the counter property). */
  const LimitMessage := "Reached the max ReconnectAttempts."

  const AttemptPrefix := "Reconnect attempt #"
  const WaitingInfix := ". Waiting "
  const AttemptSuffix := "s for the next retry."

  /** The Message property: the text given verbatim, or the attempt and the interval to wait. */
  function Message(args: RetryEventArgs): (m: string)
    ensures args.FromMessage? ==> m == args.text
    ensures args.FromAttempt? ==> |m| > |AttemptPrefix| + |WaitingInfix| + |AttemptSuffix|
    ensures args.FromAttempt? ==> m[..|AttemptPrefix|] == AttemptPrefix
  {
    match args
    case FromMessage(text) => text
    case FromAttempt(attempt, intervalSeconds) =>
      AttemptPrefix + Decimal.FromInt(attempt) + WaitingInfix + Decimal.FromNat(intervalSeconds) + AttemptSuffix
  }

  /** Index of the first '.' in `s`, or |s| when there is none. */
  function IndexOfDot(s: string): (k: nat)
    ensures k <= |s|
    ensures forall i | 0 <= i < k :: s[i] != '.'
    ensures k < |s| ==> s[k] == '.'
  {
    if s == [] then 0 else if s[0] == '.' then 0 else 1 + IndexOfDot(s[1..])
  }

  /** What follows `p` in `s`, when `s` starts with `p`. */
  function StripPrefix(p: string, s: string): (r: Option<string>)
    ensures r.Some? <==> |p| <= |s| && s[..|p|] == p
    ensures r.Some? ==> p + r.value == s
  {
    if |p| <= |s| && s[..|p|] == p then Some(s[|p|..]) else None
  }

  /** What precedes `q` in `s`, when `s` ends with `q`. */
  function StripSuffix(s: string, q: string): (r: Option<string>)
    ensures r.Some? <==> |q| <= |s| && s[|s| - |q|..] == q
    ensures r.Some? ==> r.value + q == s
  {
    if |q| <= |s| && s[|s| - |q|..] == q then Some(s[..|s| - |q|]) else None
  }

  /**
   * Reads the attempt number and the interval back out of an attempt message;
   * None for text of another shape, such as the limit notice.
   */
  function ParseAttempt(m: string): Option<(int, nat)> {
    match StripPrefix(AttemptPrefix, m)
    case None => None
    case Some(rest) =>
      var k := IndexOfDot(rest);
      match StripPrefix(WaitingInfix, rest[k..])
      case None => None
      case Some(tail) =>
        match StripSuffix(tail, AttemptSuffix)
        case None => None
        case Some(interval) => Some((Decimal.ToInt(rest[..k]), Decimal.ToNat(interval)))
  }

  lemma {:induction false} IndexOfDotAfter(d: string, x: string)
    requires forall i | 0 <= i < |d| :: d[i] != '.'
    requires |x| > 0 && x[0] == '.'
    ensures IndexOfDot(d + x) == |d|
  {
    if d != [] {
      assert (d + x)[1..] == d[1..] + x;
      IndexOfDotAfter(d[1..], x);
    }
  }

  lemma StripPrefixOfAppend(p: string, x: string)
    ensures StripPrefix(p, p + x) == Some(x)
  {
    assert (p + x)[..|p|] == p;
  }

  lemma StripSuffixOfAppend(x: string, q: string)
    ensures StripSuffix(x + q, q) == Some(x)
  {
    assert (x + q)[|x + q| - |q|..] == q;
  }

  /** An attempt message is split at its first '.', which ends the attempt numeral. */
  lemma ParseParts(a: string, s: string)
    requires forall i | 0 <= i < |a| :: a[i] != '.'
    ensures ParseAttempt(AttemptPrefix + a + WaitingInfix + s + AttemptSuffix)
            == Some((Decimal.ToInt(a), Decimal.ToNat(s)))
  {
    var tail := WaitingInfix + (s + AttemptSuffix);
    var rest := a + tail;
    assert AttemptPrefix + a + WaitingInfix + s + AttemptSuffix == AttemptPrefix + rest;
    StripPrefixOfAppend(AttemptPrefix, rest);
    IndexOfDotAfter(a, tail);
    assert rest[..|a|] == a && rest[|a|..] == tail;
    StripPrefixOfAppend(WaitingInfix, s + AttemptSuffix);
    StripSuffixOfAppend(s, AttemptSuffix);
  }

  /** Round trip: the attempt and interval are recoverable from the message. */
  lemma ParseFromAttempt(attempt: int, intervalSeconds: nat)
    ensures ParseAttempt(Message(FromAttempt(attempt, intervalSeconds))) == Some((attempt, intervalSeconds))
  {
    var a := Decimal.FromInt(attempt);
    forall i | 0 <= i < |a| ensures a[i] != '.' {
      assert a[i] == '-' || Decimal.IsDigit(a[i]);
    }
    ParseParts(a, Decimal.FromNat(intervalSeconds));
    Decimal.ToIntFromInt(attempt);
    Decimal.ToNatFromNat(intervalSeconds);
  }

  /** Distinct attempts (or intervals) give distinct messages. */
  lemma FromAttemptInjective(a1: int, s1: nat, a2: int, s2: nat)
    requires Message(FromAttempt(a1, s1)) == Message(FromAttempt(a2, s2))
    ensures a1 == a2 && s1 == s2
  {
    ParseFromAttempt(a1, s1);
    ParseFromAttempt(a2, s2);
  }

  /** The limit notice is never mistaken for an attempt message. */
  lemma LimitIsNotAnAttempt(attempt: int, intervalSeconds: nat)
    ensures Message(FromMessage(LimitMessage)) != Message(FromAttempt(attempt, intervalSeconds))
    ensures ParseAttempt(LimitMessage) == None
  {
    var m := Message(FromAttempt(attempt, intervalSeconds));
    assert m[2] == 'c';
    assert LimitMessage[2] == 'a';
  }
}

=== FILE: session.dfy ===
/**
 * The connection bookkeeping of the client as a state machine. The recursion
 * ConnectAsync -> (fault) HandleExAsync -> ReconnectAsync -> ConnectAsync(true)
 * -> ReceiveAsync -> ReadMessageAsync -> ReconnectAsync ... becomes one step
 * function over four modes, driven by what the transport reports: one outcome
 * per handshake and one result per read. Run iterates it until the chain ends
 * (Idle) or the transport has nothing more to report.
 */
module Session {
  import opened Wrappers
  import opened Events
  import opened Config
  import RetryArgs
  import Funnel

  /** The transport's state (NoneState is the platform's None). */
  datatype SocketState = NoneState | Connecting | Open | CloseSent | CloseReceived | Closed | Aborted

  datatype MessageType = TextFrame | BinaryFrame | CloseFrame

  /** What one receive call delivered: the bytes written into the buffer and the frame's header. */
  datatype Frame = Frame(endOfMessage: bool, messageType: MessageType, closeStatus: CloseStatus, data: seq<byte>)

  /**
   * The outcome of one ConnectAsync past its guard: the handshake accepted or
   * refused by the transport, or the endpoint's URL rejected by the Uri parser
   * before any handshake (that exception is not wrapped in Try, so no Error).
   */
  datatype Handshake = Accepted | Refused(fault: Fault) | InvalidUri(fault: Fault)

  /**
   * The outcome of one receive call: a frame and the transport state after it,
   * with the outcome of the close acknowledgement should one be sent; or a fault.
   */
  datatype Read =
    | Received(frame: Frame, stateAfter: SocketState, ackFault: Option<Fault>)
    | ReadFailed(fault: Fault)

  /** Frames the client writes to the transport. */
  datatype Outgoing = SentText(text: string) | SentClose(status: CloseStatus, reason: string)

  /** The client's fields that the chain reads and writes, with the event log and the frames sent. */
  datatype State = State(
    connected: bool,
    attempts: nat,
    interval: nat,
    socket: SocketState,
    events: seq<Event>,
    sent: seq<Outgoing>)

  /**
   * Where the chain is: about to perform a handshake (ConnectAsync), inside the
   * receive loop, inside ReconnectAsync (afterClose: entered from a close frame,
   * so the receive loop resumes when it returns), or finished.
   */
  datatype Mode = Handshaking | Receiving | Reconnecting(afterClose: bool) | Idle

  datatype Next = Next(state: State, mode: Mode)

  datatype Machine = Machine(state: State, mode: Mode, handshakes: seq<Handshake>, incoming: seq<Read>)

  const ClosedByRemote := "Closed by remote"

  /** The receive buffer: BufferSize bytes, the delivered ones first, zeros after. */
  function Buffer(data: seq<byte>, size: nat): (b: seq<byte>)
    ensures |b| == size
    ensures forall i | 0 <= i < size :: b[i] == if i < |data| then data[i] else 0
  {
    seq(size, i requires 0 <= i < size => if i < |data| then data[i] else 0)
  }

  // ---------------------------------------------------------------- policy

  datatype Decision = Skip | LimitReached | Attempt

  /** The guards of ReconnectAsync. */
  function Policy(cfg: WebSocketConfig, connected: bool, attempts: nat): Decision {
    if !cfg.autoReconnect || connected then Skip
    else if attempts > cfg.maxReconnectAttempts && cfg.maxReconnectAttempts >= 0 then Skip
    else if attempts == cfg.maxReconnectAttempts then LimitReached
    else Attempt
  }

  /** Any negative limit (-1 in particular) never stops the retries. */
  lemma NegativeLimitNeverStops(cfg: WebSocketConfig, attempts: nat)
    requires cfg.autoReconnect && cfg.maxReconnectAttempts < 0
    ensures Policy(cfg, false, attempts) == Attempt
  {
  }

  /** A configured limit of 0 is validated into "no limit". */
  lemma ZeroLimitNeverStops(cfg: WebSocketConfig, attempts: nat)
    requires cfg.url.Some? && cfg.autoReconnect && cfg.maxReconnectAttempts == 0
    ensures Policy(Validate(cfg).value, false, attempts) == Attempt
  {
  }

  // ------------------------------------------------------- receive dispatch

  datatype Reaction = Ignore | Publish | PeerClosed(reconnect: bool)

  /** ReadMessageAsync's decision on one read. */
  function ReadMessage(endOfMessage: bool, messageType: MessageType, autoReconnect: bool): (r: Reaction)
    ensures !endOfMessage ==> r == Ignore
    ensures r == Publish <==> endOfMessage && messageType == TextFrame
    ensures r.PeerClosed? <==> endOfMessage && messageType == CloseFrame
    ensures r.PeerClosed? ==> r.reconnect == autoReconnect
  {
    if !endOfMessage then Ignore
    else if messageType == TextFrame then Publish
    else if messageType == CloseFrame then PeerClosed(autoReconnect)
    else Ignore
  }

  // ------------------------------------------------------------ the steps

  /** HandleExAsync: a cancellation ends the chain; anything else is reported as a disconnection, then ReconnectAsync. */
  function HandleEx(s: State, f: Fault): Next {
    if f.isTaskCanceled then Next(s, Idle)
    else Next(s.(events := s.events + [Disconnected(ProtocolError, Chars(f.message))], connected := false),
              Reconnecting(false))
  }

  /**
   * A fault rethrown by Try(this, true) around the handshake or the receive
   * loop: the Error event, then HandleExAsync.
   */
  function OnFault(s: State, f: Fault): Next {
    HandleEx(s.(events := s.events + Funnel.Raised(Funnel.HandleException(f, true))), f)
  }

  /** ConnectAsync after its IsConnected guard, given the handshake's outcome. */
  function OnHandshake(s: State, h: Handshake): Next {
    match h
    case Accepted =>
      Next(s.(connected := true, socket := Open, events := s.events + [Connected], attempts := 0, interval := 0),
           Receiving)
    case Refused(f) => OnFault(s.(socket := Closed), f)
    case InvalidUri(f) => HandleEx(s.(socket := NoneState), f)
  }

  /** ReadMessageAsync, on the state the receive call left, for the frame it delivered. */
  function OnMessage(cfg: WebSocketConfig, s: State, frame: Frame, ack: Option<Fault>): Next {
    var text := Utf8(Buffer(frame.data, cfg.bufferSize));
    match ReadMessage(frame.endOfMessage, frame.messageType, cfg.autoReconnect)
    case Ignore => Next(s, Receiving)
    case Publish => Next(s.(events := s.events + [Message(text)]), Receiving)
    case PeerClosed(reconnect) =>
      var s1 := s.(events := s.events + [Disconnected(frame.closeStatus, text)]);
      if reconnect then Next(s1, Reconnecting(true))
      else if s1.socket != Open then Next(s1, Receiving)
      else match ack
        case None =>
          Next(s1.(socket := Closed, sent := s1.sent + [SentClose(NormalClosure, ClosedByRemote)]), Receiving)
        case Some(f) => OnFault(s1.(socket := Aborted), f)
  }

  /** One turn of ReceiveAsync's loop on an open socket: the receive call, then ReadMessageAsync. */
  function OnRead(cfg: WebSocketConfig, s: State, r: Read): Next {
    match r
    case ReadFailed(f) => OnFault(s.(socket := Aborted), f)
    case Received(frame, after, ack) => OnMessage(cfg, s.(socket := after), frame, ack)
  }

  /** ReconnectAsync up to (not including) its call of ConnectAsync. */
  function OnReconnect(cfg: WebSocketConfig, s: State, afterClose: bool): Next {
    var resume := if afterClose then Receiving else Idle;
    match Policy(cfg, s.connected, s.attempts)
    case Skip => Next(s, resume)
    case LimitReached =>
      Next(s.(events := s.events + [Retry(RetryArgs.FromMessage(RetryArgs.LimitMessage))],
              attempts := s.attempts + 1),
           resume)
    case Attempt =>
      var attempts := s.attempts + 1;
      var interval := s.interval + cfg.reconnectInterval;
      Next(s.(attempts := attempts, interval := interval,
              events := s.events + [Retry(RetryArgs.FromAttempt(attempts, interval))]),
           Handshaking)
  }

  function Rank(mode: Mode): nat {
    match mode
    case Idle => 0
    case Handshaking => 1
    case Receiving => 1
    case Reconnecting(_) => 2
  }

  function Measure(m: Machine): nat {
    3 * (|m.handshakes| + |m.incoming|) + Rank(m.mode)
  }

  /**
   * Whether the chain has ended, or needs a handshake or a read that the
   * transport has not reported.
   */
  predicate Stopped(m: Machine) {
    || m.mode == Idle
    || (m.mode == Handshaking && !m.state.connected && m.handshakes == [])
    || (m.mode == Receiving && m.state.socket == Open && m.incoming == [])
  }

  /** ConnectAsync past its guard, consuming the next handshake outcome. */
  function HandshakeStep(m: Machine): (r: Machine)
    requires m.mode == Handshaking && !m.state.connected && m.handshakes != []
    ensures r.handshakes == m.handshakes[1..] && r.incoming == m.incoming
  {
    var n := OnHandshake(m.state, m.handshakes[0]);
    Machine(n.state, n.mode, m.handshakes[1..], m.incoming)
  }

  /** One turn of the receive loop, consuming the next read. */
  function ReceiveStep(cfg: WebSocketConfig, m: Machine): (r: Machine)
    requires m.mode == Receiving && m.state.socket == Open && m.incoming != []
    ensures r.handshakes == m.handshakes && r.incoming == m.incoming[1..]
  {
    var n := OnRead(cfg, m.state, m.incoming[0]);
    Machine(n.state, n.mode, m.handshakes, m.incoming[1..])
  }

  /** ReconnectAsync, consuming nothing. */
  function ReconnectStep(cfg: WebSocketConfig, m: Machine): (r: Machine)
    requires m.mode.Reconnecting?
    ensures r.handshakes == m.handshakes && r.incoming == m.incoming
    ensures r.mode != m.mode
  {
    var n := OnReconnect(cfg, m.state, m.mode.afterClose);
    Machine(n.state, n.mode, m.handshakes, m.incoming)
  }

  /** One step of the chain. */
  function Step(cfg: WebSocketConfig, m: Machine): (r: Machine)
    requires !Stopped(m)
    ensures Measure(r) < Measure(m)
    ensures m.state.events <= r.state.events
  {
    match m.mode
    case Handshaking => if m.state.connected then m.(mode := Idle) else HandshakeStep(m)
    case Receiving => if m.state.socket != Open then m.(mode := Idle) else ReceiveStep(cfg, m)
    case Reconnecting(_) => ReconnectStep(cfg, m)
  }

  /** Steps until the chain stops. */
  function Run(cfg: WebSocketConfig, m: Machine): (r: Machine)
    ensures Stopped(r)
    ensures m.state.events <= r.state.events
    decreases Measure(m)
  {
    if Stopped(m) then m else Run(cfg, Step(cfg, m))
  }
}

=== FILE: session_properties.dfy ===
/**
 * What the connection bookkeeping guarantees: the counters' invariant, the
 * exact Retry sequence of a failing reconnect chain (limited and unlimited),
 * the reset on success, the fault and frame handling, and the behaviour of a
 * peer's close frame while the client still counts itself connected.
 */
module SessionProperties {
  import opened Wrappers
  import opened Events
  import opened Config
  import opened Session
  import RetryArgs

  // ------------------------------------------------------- the invariant

  /**
   * The accumulated wait after n attempts: one configured interval per attempt,
   * written as a sum so that the proofs about it stay linear.
   */
  function Backoff(n: nat, base: nat): nat {
    if n == 0 then 0 else Backoff(n - 1, base) + base
  }

  lemma {:induction false} BackoffIsProduct(n: nat, base: nat)
    ensures Backoff(n, base) == n * base
  {
    if n > 0 {
      BackoffIsProduct(n - 1, base);
    }
  }

  /** With a positive interval, more attempts always mean a longer wait. */
  lemma {:induction false} BackoffIncreases(x: nat, y: nat, base: nat)
    requires x < y && base > 0
    ensures Backoff(x, base) < Backoff(y, base)
    decreases y
  {
    if x < y - 1 {
      BackoffIncreases(x, y - 1, base);
    }
  }

  /** The attempts the backoff has been charged for: one interval per attempt, none for the limit notice. */
  function Charged(cfg: WebSocketConfig, attempts: nat): nat {
    if cfg.maxReconnectAttempts >= 0 && attempts > cfg.maxReconnectAttempts then cfg.maxReconnectAttempts
    else attempts
  }

  /**
   * The counters' invariant: a connected client has both counters reset, the
   * attempts never run more than one past the limit, and the interval is one
   * configured interval per charged attempt.
   */
  predicate Consistent(cfg: WebSocketConfig, s: State) {
    && (s.connected ==> s.attempts == 0 && s.interval == 0)
    && (cfg.maxReconnectAttempts >= 0 ==> s.attempts <= cfg.maxReconnectAttempts + 1)
    && s.interval == Backoff(Charged(cfg, s.attempts), cfg.reconnectInterval)
  }

  lemma HandleExPreservesConsistent(cfg: WebSocketConfig, s: State, f: Fault)
    requires Consistent(cfg, s)
    ensures Consistent(cfg, HandleEx(s, f).state)
  {
  }

  lemma OnFaultPreservesConsistent(cfg: WebSocketConfig, s: State, f: Fault)
    requires Consistent(cfg, s)
    ensures Consistent(cfg, OnFault(s, f).state)
  {
  }

  lemma OnReadPreservesConsistent(cfg: WebSocketConfig, s: State, r: Read)
    requires Consistent(cfg, s)
    ensures Consistent(cfg, OnRead(cfg, s, r).state)
  {
    match r
    case ReadFailed(f) => OnFaultPreservesConsistent(cfg, s.(socket := Aborted), f);
    case Received(frame, after, ack) =>
      if ack.Some? {
        var s2 := s.(socket := after, events := s.events + [Disconnected(frame.closeStatus, Utf8(Buffer(frame.data, cfg.bufferSize)))]);
        OnFaultPreservesConsistent(cfg, s2.(socket := Aborted), ack.value);
      }
  }

  lemma OnReconnectPreservesConsistent(cfg: WebSocketConfig, s: State, afterClose: bool)
    requires Consistent(cfg, s)
    ensures Consistent(cfg, OnReconnect(cfg, s, afterClose).state)
  {
  }

  lemma StepPreservesConsistent(cfg: WebSocketConfig, m: Machine)
    requires !Stopped(m) && Consistent(cfg, m.state)
    ensures Consistent(cfg, Step(cfg, m).state)
  {
    match m.mode
    case Handshaking =>
      if !m.state.connected && m.handshakes[0].Refused? {
        OnFaultPreservesConsistent(cfg, m.state.(socket := Closed), m.handshakes[0].fault);
      } else if !m.state.connected && m.handshakes[0].InvalidUri? {
        HandleExPreservesConsistent(cfg, m.state.(socket := NoneState), m.handshakes[0].fault);
      }
    case Receiving =>
      if m.state.socket == Open {
        OnReadPreservesConsistent(cfg, m.state, m.incoming[0]);
      }
    case Reconnecting(afterClose) =>
      OnReconnectPreservesConsistent(cfg, m.state, afterClose);
  }

  lemma {:induction false} RunPreservesConsistent(cfg: WebSocketConfig, m: Machine)
    requires Consistent(cfg, m.state)
    ensures Consistent(cfg, Run(cfg, m).state)
    decreases Measure(m)
  {
    if !Stopped(m) {
      StepPreservesConsistent(cfg, m);
      RunPreservesConsistent(cfg, Step(cfg, m));
    }
  }

  /**
   * ReconnectAsync returns at one of its guards, changing nothing and raising
   * nothing, exactly when automatic reconnection is off, the client counts
   * itself connected, or a limit is configured and already passed.
   */
  lemma ReconnectSkips(cfg: WebSocketConfig, s: State, afterClose: bool)
    ensures Policy(cfg, s.connected, s.attempts) == Skip
            <==> !cfg.autoReconnect || s.connected
                 || (cfg.maxReconnectAttempts >= 0 && s.attempts > cfg.maxReconnectAttempts)
    ensures Policy(cfg, s.connected, s.attempts) == Skip ==> OnReconnect(cfg, s, afterClose).state == s
  {
  }

  /** Once the limit notice has been raised, every later ReconnectAsync returns at its guard. */
  lemma LimitNoticeIsFinal(cfg: WebSocketConfig, s: State, afterClose: bool)
    requires cfg.autoReconnect && !s.connected && cfg.maxReconnectAttempts >= 0
    requires s.attempts == cfg.maxReconnectAttempts
    ensures var n := OnReconnect(cfg, s, afterClose);
            && n.state.attempts == cfg.maxReconnectAttempts + 1
            && n.state.interval == s.interval
            && n.state.events == s.events + [Retry(RetryArgs.FromMessage(RetryArgs.LimitMessage))]
            && n.mode != Handshaking
            && OnReconnect(cfg, n.state, afterClose) == Next(n.state, n.mode)
  {
  }

  // -------------------------------------------------------- connect start

  /** ConnectAsync on a connected client changes nothing and raises nothing. */
  lemma ConnectWhileConnectedIsNoop(cfg: WebSocketConfig, s: State, hs: seq<Handshake>, rs: seq<Read>)
    requires s.connected
    ensures Run(cfg, Machine(s, Handshaking, hs, rs)) == Machine(s, Idle, hs, rs)
  {
    var m := Machine(s, Handshaking, hs, rs);
    assert Step(cfg, m) == Machine(s, Idle, hs, rs);
  }

  /** A successful handshake connects, raises Connected and resets both counters. */
  lemma AcceptedHandshakeResets(cfg: WebSocketConfig, s: State, hs: seq<Handshake>, rs: seq<Read>)
    requires !s.connected
    ensures var r := Step(cfg, Machine(s, Handshaking, [Accepted] + hs, rs));
            && r.mode == Receiving && r.handshakes == hs && r.incoming == rs
            && r.state.connected && r.state.attempts == 0 && r.state.interval == 0
            && r.state.socket == Open
            && r.state.events == s.events + [Connected]
  {
    assert ([Accepted] + hs)[1..] == hs;
  }

  // --------------------------------------------------------------- faults

  /**
   * A canceled handshake raises only the Error; it neither reports a
   * disconnection nor touches the connection flag or the counters.
   */
  lemma CanceledHandshakeStops(cfg: WebSocketConfig, s: State, f: Fault, hs: seq<Handshake>, rs: seq<Read>)
    requires !s.connected && f.isTaskCanceled
    ensures var r := Run(cfg, Machine(s, Handshaking, [Refused(f)] + hs, rs));
            && r.mode == Idle && r.handshakes == hs && r.incoming == rs
            && r.state == s.(socket := Closed, events := s.events + [Error(f)])
  {
    var m := Machine(s, Handshaking, [Refused(f)] + hs, rs);
    assert ([Refused(f)] + hs)[1..] == hs;
    var m1 := Step(cfg, m);
    assert m1 == Machine(s.(socket := Closed, events := s.events + [Error(f)]), Idle, hs, rs);
  }

  /**
   * Any other handshake refused by the transport raises Error, then Disconnected(ProtocolError),
   * clears the connection flag and enters the reconnect policy; when the policy
   * permits another attempt, the Retry comes after the Disconnected.
   */
  lemma RefusedHandshakeReportsThenRetries(cfg: WebSocketConfig, s: State, f: Fault, hs: seq<Handshake>, rs: seq<Read>)
    requires !s.connected && !f.isTaskCanceled
    ensures var m1 := Step(cfg, Machine(s, Handshaking, [Refused(f)] + hs, rs));
            && m1.mode == Reconnecting(false) && m1.handshakes == hs && m1.incoming == rs
            && !m1.state.connected && m1.state.attempts == s.attempts && m1.state.interval == s.interval
            && m1.state.events == s.events + [Error(f), Disconnected(ProtocolError, Chars(f.message))]
    ensures var m2 := Step(cfg, Step(cfg, Machine(s, Handshaking, [Refused(f)] + hs, rs)));
            Policy(cfg, false, s.attempts) == Attempt ==>
              && m2.mode == Handshaking
              && m2.state.attempts == s.attempts + 1
              && m2.state.interval == s.interval + cfg.reconnectInterval
              && m2.state.events == s.events + [Error(f), Disconnected(ProtocolError, Chars(f.message)),
                                                Retry(RetryArgs.FromAttempt(s.attempts + 1, s.interval + cfg.reconnectInterval))]
  {
    assert ([Refused(f)] + hs)[1..] == hs;
  }

  /** With automatic reconnection off, a refused handshake ends the chain after Error and Disconnected. */
  lemma RefusedWithoutAutoReconnect(cfg: WebSocketConfig, s: State, f: Fault, hs: seq<Handshake>, rs: seq<Read>)
    requires !cfg.autoReconnect && !s.connected && !f.isTaskCanceled
    ensures var r := Run(cfg, Machine(s, Handshaking, [Refused(f)] + hs, rs));
            && r.mode == Idle && !r.state.connected && r.handshakes == hs
            && r.state.events == s.events + [Error(f), Disconnected(ProtocolError, Chars(f.message))]
            && Retries(r.state.events) == Retries(s.events)
  {
    var m := Machine(s, Handshaking, [Refused(f)] + hs, rs);
    assert ([Refused(f)] + hs)[1..] == hs;
    var m1 := Step(cfg, m);
    var m2 := Step(cfg, m1);
    assert m2 == m1.(mode := Idle);
    assert Run(cfg, m) == Run(cfg, m1) == Run(cfg, m2) == m2;
    RetriesAppend(s.events, [Error(f), Disconnected(ProtocolError, Chars(f.message))]);
  }

  /**
   * A URL the Uri parser rejects fails before the handshake and outside Try:
   * Disconnected(ProtocolError) without any Error, the connection flag cleared,
   * the new socket left unused, and the reconnect policy entered; when it
   * permits another attempt, the Retry follows.
   */
  lemma InvalidUriReportsThenRetries(cfg: WebSocketConfig, s: State, f: Fault, hs: seq<Handshake>, rs: seq<Read>)
    requires !s.connected && !f.isTaskCanceled
    ensures var m1 := Step(cfg, Machine(s, Handshaking, [InvalidUri(f)] + hs, rs));
            && m1.mode == Reconnecting(false) && m1.handshakes == hs && m1.incoming == rs
            && !m1.state.connected && m1.state.socket == NoneState
            && m1.state.attempts == s.attempts && m1.state.interval == s.interval
            && m1.state.events == s.events + [Disconnected(ProtocolError, Chars(f.message))]
    ensures var m2 := Step(cfg, Step(cfg, Machine(s, Handshaking, [InvalidUri(f)] + hs, rs)));
            Policy(cfg, false, s.attempts) == Attempt ==>
              && m2.mode == Handshaking
              && m2.state.attempts == s.attempts + 1
              && m2.state.events == s.events + [Disconnected(ProtocolError, Chars(f.message)),
                                                Retry(RetryArgs.FromAttempt(s.attempts + 1, s.interval + cfg.reconnectInterval))]
  {
    assert ([InvalidUri(f)] + hs)[1..] == hs;
  }

  // ----------------------------------------------------- the retry chain

  /** A ConnectAsync that fails without being canceled: refused by the transport, or an invalid URL. */
  predicate Failing(h: Handshake) {
    (h.Refused? || h.InvalidUri?) && !h.fault.isTaskCanceled
  }

  /** The Retry payloads of attempts from+1 .. to, the k-th waiting k configured intervals. */
  function Attempts(from: nat, to: nat, base: nat): (r: seq<RetryArgs.RetryEventArgs>)
    requires from <= to
    ensures |r| == to - from
  {
    seq(to - from, i requires 0 <= i < to - from => RetryArgs.FromAttempt(from + i + 1, Backoff(from + i + 1, base)))
  }

  lemma AttemptsCons(from: nat, to: nat, base: nat)
    requires from < to
    ensures Attempts(from, to, base)
            == [RetryArgs.FromAttempt(from + 1, Backoff(from + 1, base))] + Attempts(from + 1, to, base)
  {
    var l := Attempts(from, to, base);
    var r := [RetryArgs.FromAttempt(from + 1, Backoff(from + 1, base))] + Attempts(from + 1, to, base);
    forall i | 0 <= i < |l| ensures l[i] == r[i] {
      if i > 0 {
        assert from + i + 1 == (from + 1) + (i - 1) + 1;
      }
    }
  }

  /** Payloads extended by the next attempt's and then by the later ones hold the whole run of attempts. */
  lemma ContinueAttempts(earlier: seq<RetryArgs.RetryEventArgs>, mid: seq<RetryArgs.RetryEventArgs>, final: seq<RetryArgs.RetryEventArgs>,
                         attempts: nat, next: nat, interval: nat, to: nat, base: nat)
    requires next == attempts + 1 && next <= to && interval == Backoff(attempts, base)
    requires mid == earlier + [RetryArgs.FromAttempt(attempts + 1, interval + base)]
    requires final == mid + Attempts(next, to, base)
    ensures final == earlier + Attempts(attempts, to, base)
  {
    var msg := RetryArgs.FromAttempt(attempts + 1, interval + base);
    AttemptsCons(attempts, to, base);
    AppendAssoc(earlier, [msg], Attempts(next, to, base));
  }

  /** The same, for a log that ends with the limit notice. */
  lemma ContinueAttemptsToLimit(earlier: seq<RetryArgs.RetryEventArgs>, mid: seq<RetryArgs.RetryEventArgs>, final: seq<RetryArgs.RetryEventArgs>,
                                attempts: nat, next: nat, interval: nat, to: nat, base: nat)
    requires next == attempts + 1 && next <= to && interval == Backoff(attempts, base)
    requires mid == earlier + [RetryArgs.FromAttempt(attempts + 1, interval + base)]
    requires final == mid + Attempts(next, to, base) + [RetryArgs.FromMessage(RetryArgs.LimitMessage)]
    ensures final == earlier + Attempts(attempts, to, base) + [RetryArgs.FromMessage(RetryArgs.LimitMessage)]
  {
    ContinueAttempts(earlier, mid, mid + Attempts(next, to, base), attempts, next, interval, to, base);
  }

  lemma AllFailingTail(hs: seq<Handshake>)
    requires hs != [] && forall i | 0 <= i < |hs| :: Failing(hs[i])
    ensures forall i | 0 <= i < |hs[1..]| :: Failing(hs[1..][i])
  {
    forall i | 0 <= i < |hs[1..]| ensures Failing(hs[1..][i]) {
      assert hs[1..][i] == hs[i + 1];
    }
  }

  /** ReconnectAsync permitting another attempt: the Retry, both counters advanced, then ConnectAsync. */
  lemma AttemptRound(cfg: WebSocketConfig, m: Machine) returns (r: Machine)
    requires m.mode == Reconnecting(false)
    requires Policy(cfg, m.state.connected, m.state.attempts) == Attempt
    ensures Run(cfg, m) == Run(cfg, r)
    ensures r.mode == Handshaking && r.state.connected == m.state.connected
    ensures r.handshakes == m.handshakes && r.incoming == m.incoming
    ensures r.state.attempts == m.state.attempts + 1
    ensures r.state.interval == m.state.interval + cfg.reconnectInterval
    ensures Retries(r.state.events)
            == Retries(m.state.events)
               + [RetryArgs.FromAttempt(m.state.attempts + 1, m.state.interval + cfg.reconnectInterval)]
  {
    var s := m.state;
    var retry := Retry(RetryArgs.FromAttempt(s.attempts + 1, s.interval + cfg.reconnectInterval));
    r := Step(cfg, m);
    assert r == Machine(s.(attempts := s.attempts + 1, interval := s.interval + cfg.reconnectInterval,
                           events := s.events + [retry]), Handshaking, m.handshakes, m.incoming);
    assert Retries([retry]) == [retry.args];
    RetriesAppend(s.events, [retry]);
  }

  /**
   * A failing ConnectAsync: Error (unless the URL was rejected), Disconnected,
   * and back in ReconnectAsync with the counters untouched and no Retry raised.
   */
  lemma RefusalRound(cfg: WebSocketConfig, m: Machine) returns (r: Machine)
    requires m.mode == Handshaking && !m.state.connected
    requires m.handshakes != [] && Failing(m.handshakes[0])
    ensures Run(cfg, m) == Run(cfg, r)
    ensures r.mode == Reconnecting(false) && !r.state.connected
    ensures r.handshakes == m.handshakes[1..] && r.incoming == m.incoming
    ensures r.state.attempts == m.state.attempts && r.state.interval == m.state.interval
    ensures Retries(r.state.events) == Retries(m.state.events)
  {
    var s := m.state;
    var f := m.handshakes[0].fault;
    var d := Disconnected(ProtocolError, Chars(f.message));
    r := Step(cfg, m);
    assert Retries([d]) == [];
    if m.handshakes[0].Refused? {
      assert r == Machine(s.(socket := Closed, connected := false, events := s.events + [Error(f), d]),
                          Reconnecting(false), m.handshakes[1..], m.incoming);
      assert Retries([Error(f), d]) == [];
      RetriesAppend(s.events, [Error(f), d]);
    } else {
      assert r == Machine(s.(socket := NoneState, connected := false, events := s.events + [d]),
                          Reconnecting(false), m.handshakes[1..], m.incoming);
      RetriesAppend(s.events, [d]);
    }
  }

  /**
   * One failing round from ReconnectAsync when another attempt is permitted:
   * Retry for the next attempt, the refused handshake, Error, Disconnected,
   * and back in ReconnectAsync with one more attempt and one more interval.
   */
  lemma FailingRound(cfg: WebSocketConfig, m: Machine) returns (r: Machine)
    requires m.mode == Reconnecting(false) && !m.state.connected
    requires Policy(cfg, false, m.state.attempts) == Attempt
    requires m.handshakes != [] && Failing(m.handshakes[0])
    ensures Run(cfg, m) == Run(cfg, r)
    ensures r.mode == Reconnecting(false) && !r.state.connected
    ensures r.handshakes == m.handshakes[1..] && r.incoming == m.incoming
    ensures r.state.attempts == m.state.attempts + 1
    ensures r.state.interval == m.state.interval + cfg.reconnectInterval
    ensures Retries(r.state.events)
            == Retries(m.state.events)
               + [RetryArgs.FromAttempt(m.state.attempts + 1, m.state.interval + cfg.reconnectInterval)]
  {
    var m1 := AttemptRound(cfg, m);
    r := RefusalRound(cfg, m1);
  }

  /** ReconnectAsync at the limit: the notice, one more attempt counted, and the chain ends. */
  lemma LimitRound(cfg: WebSocketConfig, m: Machine)
    requires m.mode == Reconnecting(false) && !m.state.connected
    requires Policy(cfg, false, m.state.attempts) == LimitReached
    ensures var r := Run(cfg, m);
            && r.mode == Idle && r.handshakes == m.handshakes && r.incoming == m.incoming
            && !r.state.connected && r.state.interval == m.state.interval
            && r.state.attempts == m.state.attempts + 1
            && Retries(r.state.events) == Retries(m.state.events) + [RetryArgs.FromMessage(RetryArgs.LimitMessage)]
  {
    var s := m.state;
    var notice := Retry(RetryArgs.FromMessage(RetryArgs.LimitMessage));
    assert Step(cfg, m) == m.(state := s.(events := s.events + [notice], attempts := s.attempts + 1), mode := Idle);
    assert Retries([notice]) == [RetryArgs.FromMessage(RetryArgs.LimitMessage)];
    RetriesAppend(s.events, [notice]);
  }

  /**
   * Where a limited chain of refused handshakes started at m ends (r): idle and
   * disconnected, attempts one past the limit N, the interval at N configured
   * intervals, one handshake used per remaining attempt, and one Retry per
   * remaining attempt followed by the limit notice.
   */
  predicate Exhausted(cfg: WebSocketConfig, m: Machine, r: Machine)
    requires 0 <= m.state.attempts <= cfg.maxReconnectAttempts
    requires cfg.maxReconnectAttempts - m.state.attempts <= |m.handshakes|
  {
    && r.mode == Idle && !r.state.connected
    && r.state.attempts == cfg.maxReconnectAttempts + 1
    && r.state.interval == Backoff(cfg.maxReconnectAttempts, cfg.reconnectInterval)
    && r.handshakes == m.handshakes[cfg.maxReconnectAttempts - m.state.attempts..]
    && r.incoming == m.incoming
    && Retries(r.state.events)
       == Retries(m.state.events)
          + Attempts(m.state.attempts, cfg.maxReconnectAttempts, cfg.reconnectInterval)
          + [RetryArgs.FromMessage(RetryArgs.LimitMessage)]
  }

  /** The preconditions of the limited chain. */
  predicate LimitedChain(cfg: WebSocketConfig, m: Machine) {
    && cfg.autoReconnect && cfg.maxReconnectAttempts >= 0
    && m.mode == Reconnecting(false) && !m.state.connected
    && m.state.attempts <= cfg.maxReconnectAttempts
    && m.state.interval == Backoff(m.state.attempts, cfg.reconnectInterval)
    && cfg.maxReconnectAttempts - m.state.attempts <= |m.handshakes|
    && (forall i | 0 <= i < |m.handshakes| :: Failing(m.handshakes[i]))
  }

  /**
   * With a limit N >= 0, a chain of refused handshakes ends after exactly one
   * Retry per remaining attempt and the limit notice: attempts ends at N + 1,
   * the interval at N configured intervals, and no connection is made.
   */
  lemma {:induction false} RetriesUntilExhausted(cfg: WebSocketConfig, m: Machine)
    requires LimitedChain(cfg, m)
    ensures Exhausted(cfg, m, Run(cfg, m))
    decreases cfg.maxReconnectAttempts - m.state.attempts, 1
  {
    if m.state.attempts == cfg.maxReconnectAttempts {
      LimitRound(cfg, m);
      assert Attempts(m.state.attempts, cfg.maxReconnectAttempts, cfg.reconnectInterval) == [];
    } else {
      RetriesBeforeLimit(cfg, m);
    }
  }

  /** The step case: one failing round, then the rest of the chain. */
  lemma {:induction false} RetriesBeforeLimit(cfg: WebSocketConfig, m: Machine)
    requires LimitedChain(cfg, m) && m.state.attempts < cfg.maxReconnectAttempts
    ensures Exhausted(cfg, m, Run(cfg, m))
    decreases cfg.maxReconnectAttempts - m.state.attempts, 0
  {
    var r := FailingRound(cfg, m);
    AllFailingTail(m.handshakes);
    RetriesUntilExhausted(cfg, r);
    ExhaustedAfterRound(cfg, m, r, Run(cfg, r));
  }

  /** Where the chain from r ends is where the chain from m ends, one failing round earlier. */
  lemma ExhaustedAfterRound(cfg: WebSocketConfig, m: Machine, r: Machine, e: Machine)
    requires 0 <= m.state.attempts < cfg.maxReconnectAttempts
    requires cfg.maxReconnectAttempts - m.state.attempts <= |m.handshakes|
    requires m.state.interval == Backoff(m.state.attempts, cfg.reconnectInterval)
    requires r.handshakes == m.handshakes[1..] && r.incoming == m.incoming
    requires r.state.attempts == m.state.attempts + 1
    requires r.state.interval == m.state.interval + cfg.reconnectInterval
    requires Retries(r.state.events)
             == Retries(m.state.events)
                + [RetryArgs.FromAttempt(m.state.attempts + 1, m.state.interval + cfg.reconnectInterval)]
    requires Exhausted(cfg, r, e)
    ensures Exhausted(cfg, m, e)
  {
    SliceOfSlice(m.handshakes, 1, cfg.maxReconnectAttempts - r.state.attempts);
    ContinueAttemptsToLimit(Retries(m.state.events), Retries(r.state.events),
                            Retries(e.state.events), m.state.attempts, r.state.attempts,
                            m.state.interval, cfg.maxReconnectAttempts, cfg.reconnectInterval);
  }

  /**
   * The whole chain from a client with reset counters whose handshakes are all
   * refused, for a limit N >= 0: exactly N + 1 Retry events, the k-th attempt
   * (1 <= k <= N) announcing k configured intervals, the last one the limit
   * notice; N + 1 handshakes are tried.
   */
  lemma ExactRetryCount(cfg: WebSocketConfig, s: State, hs: seq<Handshake>, rs: seq<Read>)
    requires cfg.autoReconnect && cfg.maxReconnectAttempts >= 0
    requires !s.connected && s.attempts == 0 && s.interval == 0
    requires |hs| > cfg.maxReconnectAttempts
    requires forall i | 0 <= i < |hs| :: Failing(hs[i])
    ensures var r := Run(cfg, Machine(s, Handshaking, hs, rs));
            && r.mode == Idle && !r.state.connected
            && r.handshakes == hs[cfg.maxReconnectAttempts + 1..]
            && Retries(r.state.events)
               == Retries(s.events)
                  + Attempts(0, cfg.maxReconnectAttempts, cfg.reconnectInterval)
                  + [RetryArgs.FromMessage(RetryArgs.LimitMessage)]
  {
    var m1 := RefusalRound(cfg, Machine(s, Handshaking, hs, rs));
    AllFailingTail(hs);
    RetriesUntilExhausted(cfg, m1);
    assert hs[1..][cfg.maxReconnectAttempts..] == hs[cfg.maxReconnectAttempts + 1..];
  }

  /**
   * Where an unlimited chain of refused handshakes started at m stops (e):
   * waiting for handshake n + 1 after n refusals, with n + 1 more attempts
   * counted, the interval at that many configured intervals, and one Retry
   * per attempt.
   */
  predicate Pending(cfg: WebSocketConfig, m: Machine, e: Machine) {
    && e.mode == Handshaking && e.handshakes == [] && e.incoming == m.incoming
    && !e.state.connected
    && e.state.attempts == m.state.attempts + |m.handshakes| + 1
    && e.state.interval == Backoff(e.state.attempts, cfg.reconnectInterval)
    && Retries(e.state.events)
       == Retries(m.state.events) + Attempts(m.state.attempts, e.state.attempts, cfg.reconnectInterval)
  }

  /**
   * Without a limit, every refused handshake is followed by another Retry: the
   * chain only stops once the transport reports no further handshake.
   */
  lemma {:induction false} UnlimitedKeepsRetrying(cfg: WebSocketConfig, m: Machine)
    requires cfg.autoReconnect && cfg.maxReconnectAttempts < 0
    requires m.mode == Reconnecting(false) && !m.state.connected
    requires m.state.interval == Backoff(m.state.attempts, cfg.reconnectInterval)
    requires forall i | 0 <= i < |m.handshakes| :: Failing(m.handshakes[i])
    ensures Pending(cfg, m, Run(cfg, m))
    decreases |m.handshakes|
  {
    if m.handshakes == [] {
      var r := AttemptRound(cfg, m);
      assert Stopped(r);
      PendingAfterRound(cfg, m, r, r);
    } else {
      var r := FailingRound(cfg, m);
      AllFailingTail(m.handshakes);
      UnlimitedKeepsRetrying(cfg, r);
      PendingAfterRound(cfg, m, r, Run(cfg, r));
    }
  }

  /**
   * The step of the unlimited chain without the chain: one more attempt before
   * r, whether r is already where the chain stops (no handshake left) or stops at e.
   */
  lemma PendingAfterRound(cfg: WebSocketConfig, m: Machine, r: Machine, e: Machine)
    requires m.state.interval == Backoff(m.state.attempts, cfg.reconnectInterval)
    requires r.incoming == m.incoming
    requires r.state.attempts == m.state.attempts + 1
    requires r.state.interval == m.state.interval + cfg.reconnectInterval
    requires Retries(r.state.events)
             == Retries(m.state.events)
                + [RetryArgs.FromAttempt(m.state.attempts + 1, m.state.interval + cfg.reconnectInterval)]
    requires || (m.handshakes == [] && r == e && r.mode == Handshaking && r.handshakes == [] && !r.state.connected)
             || (m.handshakes != [] && r.handshakes == m.handshakes[1..] && Pending(cfg, r, e))
    ensures Pending(cfg, m, e)
  {
    var base := cfg.reconnectInterval;
    if m.handshakes == [] {
      assert Attempts(r.state.attempts, r.state.attempts, base) == [];
      ContinueAttempts(Retries(m.state.events), Retries(r.state.events), Retries(r.state.events) + [],
                       m.state.attempts, r.state.attempts, m.state.interval, r.state.attempts, base);
    } else {
      ContinueAttempts(Retries(m.state.events), Retries(r.state.events), Retries(e.state.events),
                       m.state.attempts, r.state.attempts, m.state.interval, e.state.attempts, base);
    }
  }

  lemma AppendAssoc<T>(a: seq<T>, b: seq<T>, c: seq<T>)
    ensures a + b + c == a + (b + c)
  {
  }

  lemma SliceOfSlice<T>(s: seq<T>, i: nat, j: nat)
    requires i <= |s| && j <= |s| - i
    ensures s[i..][j..] == s[i + j..]
  {
  }

  /** The k-th attempt of a chain started from reset announces attempt k and k configured intervals. */
  lemma KthAttemptWaitsKIntervals(to: nat, base: nat, k: nat)
    requires 1 <= k <= to
    ensures Attempts(0, to, base)[k - 1] == RetryArgs.FromAttempt(k, k * base)
  {
    BackoffIsProduct(k, base);
  }

  /** The intervals announced by the messages of successive attempts strictly increase. */
  lemma AnnouncedIntervalsIncrease(from: nat, to: nat, base: nat, j: nat, k: nat)
    requires base > 0 && from <= to && j < k < to - from
    ensures RetryArgs.ParseAttempt(RetryArgs.Message(Attempts(from, to, base)[j])).Some?
    ensures RetryArgs.ParseAttempt(RetryArgs.Message(Attempts(from, to, base)[k])).Some?
    ensures RetryArgs.ParseAttempt(RetryArgs.Message(Attempts(from, to, base)[j])).value.1
            < RetryArgs.ParseAttempt(RetryArgs.Message(Attempts(from, to, base)[k])).value.1
  {
    var msgs := Attempts(from, to, base);
    var x, y := from + j + 1, from + k + 1;
    assert msgs[j] == RetryArgs.FromAttempt(x, Backoff(x, base));
    assert msgs[k] == RetryArgs.FromAttempt(y, Backoff(y, base));
    RetryArgs.ParseFromAttempt(x, Backoff(x, base));
    RetryArgs.ParseFromAttempt(y, Backoff(y, base));
    BackoffIncreases(x, y, base);
  }

  // --------------------------------------------------------------- reads

  /** A read that is not the end of a message is dropped: no event, no counter change. */
  lemma NonFinalReadIsDropped(cfg: WebSocketConfig, s: State, frame: Frame, after: SocketState,
                              ack: Option<Fault>, hs: seq<Handshake>, rs: seq<Read>)
    requires s.socket == Open && !frame.endOfMessage
    ensures var r := Step(cfg, Machine(s, Receiving, hs, [Received(frame, after, ack)] + rs));
            r == Machine(s.(socket := after), Receiving, hs, rs)
  {
    assert ([Received(frame, after, ack)] + rs)[1..] == rs;
  }

  /** A final text read raises exactly one Message, carrying the whole receive buffer. */
  lemma FinalTextReadPublishes(cfg: WebSocketConfig, s: State, frame: Frame, after: SocketState,
                               ack: Option<Fault>, hs: seq<Handshake>, rs: seq<Read>)
    requires s.socket == Open && frame.endOfMessage && frame.messageType == TextFrame
    ensures var r := Step(cfg, Machine(s, Receiving, hs, [Received(frame, after, ack)] + rs));
            && r.mode == Receiving && r.incoming == rs
            && r.state == s.(socket := after, events := s.events + [Message(Utf8(Buffer(frame.data, cfg.bufferSize)))])
  {
    assert ([Received(frame, after, ack)] + rs)[1..] == rs;
  }

  /**
   * A final close read raises Disconnected first, whatever follows; then, with
   * automatic reconnection off, the close is acknowledged only on a still-open
   * socket; with it on, ReconnectAsync is entered.
   */
  lemma CloseReadDisconnectsFirst(cfg: WebSocketConfig, s: State, frame: Frame, after: SocketState,
                                  ack: Option<Fault>, hs: seq<Handshake>, rs: seq<Read>)
    requires s.socket == Open && frame.endOfMessage && frame.messageType == CloseFrame
    ensures var r := Step(cfg, Machine(s, Receiving, hs, [Received(frame, after, ack)] + rs));
            var disconnected := Disconnected(frame.closeStatus, Utf8(Buffer(frame.data, cfg.bufferSize)));
            && r.incoming == rs
            && |r.state.events| > |s.events|
            && r.state.events[..|s.events| + 1] == s.events + [disconnected]
            && (cfg.autoReconnect ==>
                  r.mode == Reconnecting(true) && r.state.events == s.events + [disconnected]
                  && r.state.sent == s.sent && r.state.connected == s.connected)
            && (!cfg.autoReconnect && after == Open && ack.None? ==>
                  r.mode == Receiving && r.state.socket == Closed && r.state.connected == s.connected
                  && r.state.events == s.events + [disconnected]
                  && r.state.sent == s.sent + [SentClose(NormalClosure, ClosedByRemote)])
            && (!cfg.autoReconnect && after != Open ==>
                  r.mode == Receiving && r.state.sent == s.sent && r.state.connected == s.connected
                  && r.state.events == s.events + [disconnected])
  {
    assert ([Received(frame, after, ack)] + rs)[1..] == rs;
  }

  /**
   * The acknowledgement of a peer's close is not wrapped in Try: when it fails,
   * the fault reaches the receive loop's Try(this, true), so Disconnected is
   * followed by Error and then by HandleExAsync; nothing is written.
   */
  lemma FailedCloseAckReports(cfg: WebSocketConfig, s: State, frame: Frame, f: Fault,
                              hs: seq<Handshake>, rs: seq<Read>)
    requires !cfg.autoReconnect && s.socket == Open
    requires frame.endOfMessage && frame.messageType == CloseFrame
    ensures var r := Step(cfg, Machine(s, Receiving, hs, [Received(frame, Open, Some(f))] + rs));
            var disconnected := Disconnected(frame.closeStatus, Utf8(Buffer(frame.data, cfg.bufferSize)));
            && r.incoming == rs && r.state.sent == s.sent && r.state.socket == Aborted
            && (f.isTaskCanceled ==>
                  r.mode == Idle && r.state.connected == s.connected
                  && r.state.events == s.events + [disconnected, Error(f)])
            && (!f.isTaskCanceled ==>
                  r.mode == Reconnecting(false) && !r.state.connected
                  && r.state.events == s.events + [disconnected, Error(f), Disconnected(ProtocolError, Chars(f.message))])
  {
    assert ([Received(frame, Open, Some(f))] + rs)[1..] == rs;
  }

  /**
   * A peer's close frame while the client counts itself connected does not
   * reconnect, even with automatic reconnection on: nothing on this path clears
   * the connection flag, so ReconnectAsync returns at its first guard. The
   * chain ends with only the Disconnected event and the flag still set.
   */
  lemma RemoteCloseWhileConnectedDoesNotRetry(cfg: WebSocketConfig, s: State, frame: Frame,
                                              ack: Option<Fault>, hs: seq<Handshake>, rs: seq<Read>)
    requires cfg.autoReconnect && s.connected && s.socket == Open
    requires frame.endOfMessage && frame.messageType == CloseFrame
    ensures var r := Run(cfg, Machine(s, Receiving, hs, [Received(frame, CloseReceived, ack)] + rs));
            && r.mode == Idle && r.handshakes == hs && r.incoming == rs
            && r.state.connected
            && r.state.events == s.events + [Disconnected(frame.closeStatus, Utf8(Buffer(frame.data, cfg.bufferSize)))]
            && Retries(r.state.events) == Retries(s.events)
  {
    var m := Machine(s, Receiving, hs, [Received(frame, CloseReceived, ack)] + rs);
    assert ([Received(frame, CloseReceived, ack)] + rs)[1..] == rs;
    var d := Disconnected(frame.closeStatus, Utf8(Buffer(frame.data, cfg.bufferSize)));
    var s1 := s.(socket := CloseReceived, events := s.events + [d]);
    var m1 := Step(cfg, m);
    assert m1 == Machine(s1, Reconnecting(true), hs, rs);
    var m2 := Step(cfg, m1);
    assert m2 == Machine(s1, Receiving, hs, rs);
    var m3 := Step(cfg, m2);
    assert m3 == Machine(s1, Idle, hs, rs);
    assert Run(cfg, m) == Run(cfg, m1) == Run(cfg, m2) == Run(cfg, m3) == m3;
    RetriesAppend(s.events, [d]);
  }

  /** A failed read raises Error and, unless canceled, Disconnected(ProtocolError) and a reconnect. */
  lemma FailedReadReports(cfg: WebSocketConfig, s: State, f: Fault, hs: seq<Handshake>, rs: seq<Read>)
    requires s.socket == Open
    ensures var r := Step(cfg, Machine(s, Receiving, hs, [ReadFailed(f)] + rs));
            && r.incoming == rs && r.state.socket == Aborted
            && (f.isTaskCanceled ==>
                  r.mode == Idle && r.state == s.(socket := Aborted, events := s.events + [Error(f)]))
            && (!f.isTaskCanceled ==>
                  r.mode == Reconnecting(false) && !r.state.connected
                  && r.state.events == s.events + [Error(f), Disconnected(ProtocolError, Chars(f.message))])
  {
    assert ([ReadFailed(f)] + rs)[1..] == rs;
  }
}

=== FILE: socket_endpoint.dfy ===
/**
 * The endpoint value: host, optional port, TLS flag and the URL assembled from
 * them. WithPath and WithParam extend the URL of the struct they are called on
 * and hand it back; here they return the extended value.
 */
module Endpoint {
  import opened Wrappers
  import Decimal

  datatype SocketEndpoint = SocketEndpoint(host: string, port: Option<int>, ssl: bool, url: string)

  datatype EndpointError = ArgumentNull(paramName: string)

  function Scheme(ssl: bool): string {
    if ssl then "wss" else "ws"
  }

  /** The URL starts with the scheme chosen by the TLS flag and "://". */
  predicate SchemeMatches(e: SocketEndpoint) {
    var origin := Scheme(e.ssl) + "://";
    |origin| <= |e.url| && e.url[..|origin|] == origin
  }

  /** The URL's scheme is "wss" exactly when the TLS flag is set, and "ws" otherwise. */
  lemma SecureIffSsl(e: SocketEndpoint)
    requires SchemeMatches(e)
    ensures |e.url| >= 6 && e.url[..6] == "wss://" <==> e.ssl
    ensures |e.url| >= 5 && e.url[..5] == "ws://" <==> !e.ssl
  {
    var origin := Scheme(e.ssl) + "://";
    assert e.url[..|origin|] == origin;
    if e.ssl {
      assert e.url[..6] == origin;
      assert e.url[2] == 's';
    } else {
      assert e.url[..5] == origin;
      assert e.url[2] == ':';
    }
  }

  /** SocketEndpoint(string host, bool ssl = false, int? port = null); None stands for null. */
  function FromHost(host: Option<string>, ssl: bool := false, port: Option<int> := None)
    : (r: Result<SocketEndpoint, EndpointError>)
    ensures r.Failure? <==> host.None?
    ensures r.Failure? ==> r.error == ArgumentNull("host")
    ensures r.Success? ==> r.value.host == host.value && r.value.port == port && r.value.ssl == ssl
    ensures r.Success? ==> SchemeMatches(r.value)
    ensures r.Success? && port.None? ==> r.value.url == Scheme(ssl) + "://" + host.value
    ensures r.Success? && port.Some? ==>
              r.value.url == Scheme(ssl) + "://" + host.value + ":" + Decimal.FromInt(port.value)
  {
    match host
    case None => Failure(ArgumentNull("host"))
    case Some(h) =>
      var portPart := if port.Some? then ":" + Decimal.FromInt(port.value) else "";
      Success(SocketEndpoint(h, port, ssl, Scheme(ssl) + "://" + h + portPart))
  }

  /** SocketEndpoint(int port, bool ssl = false): a port on localhost. */
  function FromPort(port: int, ssl: bool := false): (r: SocketEndpoint)
    ensures r.host == "localhost" && r.port == Some(port) && r.ssl == ssl
    ensures SchemeMatches(r)
  {
    SocketEndpoint("localhost", Some(port), ssl, Scheme(ssl) + "://localhost" + ":" + Decimal.FromInt(port))
  }

  /**
   * SocketEndpoint(bool ssl): localhost without a port. Written without an
   * argument, `new SocketEndpoint()` is the struct's default value instead,
   * which the configuration treats as a missing endpoint.
   */
  function Localhost(ssl: bool): (r: SocketEndpoint)
    ensures r.host == "localhost" && r.port == None && r.ssl == ssl
    ensures SchemeMatches(r)
  {
    SocketEndpoint("localhost", None, ssl, Scheme(ssl) + "://localhost")
  }

  /** The port constructor builds what the host constructor builds for "localhost" and that port. */
  lemma FromPortAgrees(port: int, ssl: bool)
    ensures FromPort(port, ssl) == FromHost(Some("localhost"), ssl, Some(port)).value
  {
    var origin, portPart := Scheme(ssl) + "://", ":" + Decimal.FromInt(port);
    assert origin + "localhost" + portPart == Scheme(ssl) + "://localhost" + portPart;
  }

  /** The parameterless constructor builds what the host constructor builds for "localhost" alone. */
  lemma LocalhostAgrees(ssl: bool)
    ensures Localhost(ssl) == FromHost(Some("localhost"), ssl, None).value
  {
    assert Scheme(ssl) + "://" + "localhost" == Scheme(ssl) + "://localhost";
  }

  function ToString(e: SocketEndpoint): (s: string)
    ensures s == e.url
  {
    e.url
  }

  /** path.Replace("/", ""): every '/' removed, the other characters kept in order. */
  function StripSlashes(path: string): (r: string)
    ensures '/' !in r
    ensures |r| <= |path|
  {
    if path == [] then []
    else (if path[0] == '/' then [] else [path[0]]) + StripSlashes(path[1..])
  }

  /** Every '/' is removed and every other character is kept as often as it occurs. */
  lemma {:induction false} StripSlashesCounts(path: string)
    ensures multiset(StripSlashes(path)) == multiset(path)['/' := 0]
  {
    if path != [] {
      assert path == [path[0]] + path[1..];
      StripSlashesCounts(path[1..]);
    }
  }

  lemma {:induction false} StripSlashesKeepsOthers(path: string)
    requires '/' !in path
    ensures StripSlashes(path) == path
  {
    if path != [] {
      StripSlashesKeepsOthers(path[1..]);
    }
  }

  lemma {:induction false} StripSlashesAppend(a: string, b: string)
    ensures StripSlashes(a + b) == StripSlashes(a) + StripSlashes(b)
  {
    if a != [] {
      assert (a + b)[1..] == a[1..] + b;
      StripSlashesAppend(a[1..], b);
    } else {
      assert a + b == b;
    }
  }

  predicate EndsWithSlash(url: string) {
    |url| > 0 && url[|url| - 1] == '/'
  }

  /** Appends the path without its slashes, separated from the URL by exactly one '/'. */
  function WithPath(e: SocketEndpoint, path: string): (r: SocketEndpoint)
    ensures r.host == e.host && r.port == e.port && r.ssl == e.ssl
    ensures e.url <= r.url
    ensures EndsWithSlash(e.url) ==> r.url[|e.url|..] == StripSlashes(path)
    ensures !EndsWithSlash(e.url) ==> r.url[|e.url|..] == "/" + StripSlashes(path)
    ensures '/' !in r.url[|e.url| + (if EndsWithSlash(e.url) then 0 else 1)..]
    ensures SchemeMatches(e) ==> SchemeMatches(r)
  {
    var stripped := StripSlashes(path);
    var tail := if EndsWithSlash(e.url) then stripped else "/" + stripped;
    var offset := if EndsWithSlash(e.url) then 0 else 1;
    assert (e.url + tail)[|e.url|..] == tail;
    assert (e.url + tail)[|e.url| + offset..] == stripped;
    e.(url := e.url + tail)
  }

  /** Appends "key=value", introduced by '?' for the first parameter and '&' after that. */
  function WithParam(e: SocketEndpoint, key: string, value: string): (r: SocketEndpoint)
    ensures r.host == e.host && r.port == e.port && r.ssl == e.ssl
    ensures e.url <= r.url
    ensures '?' in r.url
    ensures '?' in e.url ==> r.url == e.url + "&" + key + "=" + value
    ensures '?' !in e.url ==> r.url == e.url + "?" + key + "=" + value
    ensures SchemeMatches(e) ==> SchemeMatches(r)
  {
    if '?' in e.url then e.(url := e.url + "&" + key + "=" + value)
    else e.(url := e.url + "?" + key + "=" + value)
  }

  /** Parameters after the first one are joined with '&'. */
  lemma LaterParamsUseAmpersand(e: SocketEndpoint, k1: string, v1: string, k2: string, v2: string)
    ensures WithParam(WithParam(e, k1, v1), k2, v2).url
            == WithParam(e, k1, v1).url + "&" + k2 + "=" + v2
  {
  }
}

=== FILE: web_socket_config.dfy ===
/**
 * The client configuration and its defaulting. Durations are whole seconds;
 * BufferSize is an unsigned 16-bit field; MaxReconnectAttempts is -1 (or any
 * negative number) for "no limit".
 */
module Config {
  import opened Wrappers
  import Endpoint

  type UShort = x: int | 0 <= x < 0x1_0000

  /** `url` is None when the endpoint is left at its default (empty) value. */
  datatype WebSocketConfig = WebSocketConfig(
    url: Option<Endpoint.SocketEndpoint>,
    bufferSize: UShort,
    autoReconnect: bool,
    reconnectInterval: nat,
    maxReconnectAttempts: int,
    connectionTimeOut: nat)

  datatype ConfigError = ArgumentNull(paramName: string)

  const DefaultBufferSize: UShort := 512
  const DefaultReconnectInterval: nat := 10
  const Unlimited: int := -1
  const DefaultConnectionTimeOut: nat := 30

  /** No field is left at its zero value. */
  predicate IsValidated(c: WebSocketConfig) {
    && c.url.Some?
    && c.bufferSize != 0
    && c.reconnectInterval != 0
    && c.maxReconnectAttempts != 0
    && c.connectionTimeOut != 0
  }

  /** What validation yields: the missing endpoint is an error, every other zero field gets its default. */
  function Validate(cfg: WebSocketConfig): (r: Result<WebSocketConfig, ConfigError>)
    ensures r.Failure? <==> cfg.url.None?
    ensures r.Failure? ==> r.error == ArgumentNull("Url")
    ensures r.Success? ==> IsValidated(r.value)
    ensures r.Success? ==> r.value.url == cfg.url && r.value.autoReconnect == cfg.autoReconnect
    ensures r.Success? ==> r.value.bufferSize == if cfg.bufferSize == 0 then DefaultBufferSize else cfg.bufferSize
    ensures r.Success? ==>
              r.value.reconnectInterval == if cfg.reconnectInterval == 0 then DefaultReconnectInterval else cfg.reconnectInterval
    ensures r.Success? ==>
              r.value.maxReconnectAttempts == if cfg.maxReconnectAttempts == 0 then Unlimited else cfg.maxReconnectAttempts
    ensures r.Success? ==>
              r.value.connectionTimeOut == if cfg.connectionTimeOut == 0 then DefaultConnectionTimeOut else cfg.connectionTimeOut
  {
    if cfg.url.None? then Failure(ArgumentNull("Url"))
    else Success(WebSocketConfig(
      cfg.url,
      if cfg.bufferSize == 0 then DefaultBufferSize else cfg.bufferSize,
      cfg.autoReconnect,
      if cfg.reconnectInterval == 0 then DefaultReconnectInterval else cfg.reconnectInterval,
      if cfg.maxReconnectAttempts == 0 then Unlimited else cfg.maxReconnectAttempts,
      if cfg.connectionTimeOut == 0 then DefaultConnectionTimeOut else cfg.connectionTimeOut))
  }

  /** ValidateInstance: reassigns the zero fields of its copy one after another. */
  method ValidateInstance(cfg: WebSocketConfig) returns (r: Result<WebSocketConfig, ConfigError>)
    ensures r == Validate(cfg)
  {
    var c := cfg;
    if c.url.None? {
      return Failure(ArgumentNull("Url"));
    }
    if c.bufferSize == 0 {
      c := c.(bufferSize := DefaultBufferSize);
    }
    if !c.autoReconnect {
      c := c.(autoReconnect := false);
    }
    if c.reconnectInterval == 0 {
      c := c.(reconnectInterval := DefaultReconnectInterval);
    }
    if c.maxReconnectAttempts == 0 {
      c := c.(maxReconnectAttempts := Unlimited);
    }
    if c.connectionTimeOut == 0 {
      c := c.(connectionTimeOut := DefaultConnectionTimeOut);
    }
    r := Success(c);
  }

  /** A validated configuration passes validation unchanged. */
  lemma ValidatedIsFixedPoint(c: WebSocketConfig)
    requires IsValidated(c)
    ensures Validate(c) == Success(c)
  {
  }

  /** Validation is idempotent. */
  lemma ValidateIdempotent(cfg: WebSocketConfig)
    requires Validate(cfg).Success?
    ensures Validate(Validate(cfg).value) == Validate(cfg)
  {
    ValidatedIsFixedPoint(Validate(cfg).value);
  }

  /** A limit of 0 cannot be configured: it turns into "unlimited". */
  lemma ZeroLimitBecomesUnlimited(cfg: WebSocketConfig)
    requires cfg.url.Some? && cfg.maxReconnectAttempts == 0
    ensures Validate(cfg).value.maxReconnectAttempts == -1
  {
  }
}

=== FILE: wrappers.dfy ===
/** Option and Result, used for the source's nullable values and thrown argument errors. */
module Wrappers {

  datatype Option<+T> = None | Some(value: T)

  datatype Result<+T, +E> = Success(value: T) | Failure(error: E)
}
